=== FILE: README.md ===
# hndlor in Dafny

A model of the core of `hndlor`, a small Go library that turns typed functions
into `net/http` handlers. A handler is built from a callback and a list of
*value resolvers*. Each resolver names a field, a source (query string, body,
URL path, header, request context, or "default", which picks by request
method) and a target type. On every request the handler resolves the values,
coerces them to the declared types and calls the callback. Whatever the
callback returns, a JSON map or an error, is written back as a JSON response.

The model follows the library's files, one module per file:

| module | file | what it models |
|---|---|---|
| `Text` (text.dfy) | (standard library) | `strconv.ParseInt`/`FormatInt`/`ParseBool` in base 10, ASCII `strings.ToLower`, `strings.Contains`, `strings.Join`, `textproto.CanonicalMIMEHeaderKey` |
| `Data` (data.dfy) | (Go runtime) | types (`reflect.Type` as `TypeTag`), dynamic values (`any` as `Dyn`), zero values, type assertions, requests |
| `Errors` (errors.dfy) | error.go | `ResponseError`, its builders, its JSON forms and its log line; the `(value, error)`-or-panic outcome `Ret`, and `Outcome` for user functions that return only an error |
| `ContextStore` (context.dfy) | context.go | the JSON map kept in a request's context: `GetAllData`, `GetData`, `PatchValue`, `PatchMap` |
| `Coerce` (reader.dfy) | reader.go | `ReadValue` (scalar coercion) and `ReadFields` (exported field keys) |
| `BodyRules` (body.dfy) | body.go | `HasBody`, `PrepareBody`, `BodyJSON`, `BodyRead`, `BodyReadStruct` |
| `Resolution` (value.dfy) | value.go | the `Value[T]` resolver, its builders, `readValue`, `readDefaultValue`, `Resolve` |
| `Collect` (values.dfy) | values.go | `Values`, `ValuesAs`, `ReadRequest`, `ReadContext` |
| `Responses` (writer.dfy) | writer.go | `WriteData`, `WriteError`, `WriteMessage` and `WriteErrorMessage` (through `WriteSingle`), `LogError` |
| `Dispatch` (handler.dfy) | handler.go | `Handler`: `New`, `OnFail`, `Invalidate`, `Values`, `ServeHTTP` |
| `Middleware` (middleware.dfy) | middleware.go | `M`, `MM`, `Chain` |
| `WalkSettings` (walk_config.dfy) | walk_config.go | `WalkConfig` with `Set`/`Has`/`Get`/`Clone`, `NewWalkConfig`, `makeRouteLoc` |
| `RouteStats` (walk.dfy) | walk.go | `RouteStat.String` and the segment rendering of `buildRouteStat` |

Modelling conventions:

- A Go call that returns `(T, error)` is a `Ret<T>`: `Ret(value, err)` with
  `err` an `Option<Error>`. A Go panic (a failed type assertion, `hVal[0]` on
  an empty header slice, `NumField` on a non-struct, `WriteHeader` with a bad
  code, `New` with a bad callback) is `Panicked(why)`.
- User code the library calls can panic, and the panic goes on through the
  library. A custom reader returns a `Ret`. A validator and a fail hook
  return an `Outcome`: `Returns(err)` for the error they return, or
  `Panics(why)`. A callback's `CallOut` is its results, or `CallPanics(why)`.
- Go maps are references. The request-context data map is therefore held in
  an explicit `Store`, a sequence of maps, and a request's context keeps the
  map's index. This makes a `PatchValue` on a child request visible through
  its parent, as in Go. `WalkConfig` mappings are held the same way, in
  `MuxTables`.
- Collaborators the library only calls are fields of an `Env` value:
  - `encoding/json` marshal and decode;
  - `StructToStruct`;
  - `strconv.ParseFloat`;
  - form parsing;
  - `http.StatusText`;
  - `fmt.Sprint` of floats and composite values.

  Every property holds for every `Env`.
- A response writer is a `Writer` record. It holds:
  - the status, which is set once. A later `WriteHeader` is ignored before
    its code is checked, which is the order of `httptest.ResponseRecorder`,
    the writer the repository's tests serve into (main_test.go:24);
  - the headers added before the status;
  - the JSON chunks written;
  - the lines sent to the log.

Where the library's documentation and its code disagree, the model follows the
code:

- `Values` and `ValuesAs` appear twice, in value.go and values.go, with the
  same bodies. They are modelled once, citing values.go.
- The handler calls `Resolve(w, r)` on each resolver, while `Value.Resolve`
  takes only the request. The writer is unused, and the model passes only the
  request.
- A scalar header value is read with the exact key (`r.Header[field]`), so it
  is case-sensitive. A header key that is present with an empty slice panics.
  A struct from headers uses `Header.Get`, which canonicalises the key. Both
  are modelled as written.
- `BodyReadStruct` is called with `&data`. For a pointer-to-struct target `T`
  on a form body, `ReadFields` then sees a pointer to a pointer and panics.
  The model keeps this panic.
- `Invalidate` memoises only a failure. A valid handler is re-checked on
  every request.
- `NewValue[T]` asserts the zero value of `T` back to `T`. For an interface
  `T` the zero value is the nil interface and the assertion panics, so every
  constructor panics for an interface type. The model keeps this panic. For
  `ReadContext` it is a defect, listed under Findings.
- A callback's first result has the static type `JSON`, so the assertion
  `data.(JSON)` in `ServeHTTP` always holds. A nil map is written as JSON
  `null`. The model's callback returns `Option<map>`, with `None` for the nil
  map.

## Model

| member | source | states |
|---|---|---|
| `Text.ParseIntMeaning` | reader.go:19-22 | base-10 int64 parsing succeeds exactly on an optionally signed digit string whose value lies in the int64 range, and then yields that value |
| `Text.FormatIntRoundTrip` | reader.go:16-19 | the decimal text `fmt.Sprint` gives an int64 parses back to the same integer |
| `Text.FormatBool` | reader.go:30-31 | the text of a bool is accepted by ParseBool and gives the bool back |
| `Text.ToLower` | reader.go:55 | lower-casing keeps the length, leaves no upper-case ASCII letter and changes nothing else |
| `Text.Contains` | body.go:32 | the multipart test holds exactly when the content type has the multipart type as a substring at some position |
| `Text.CanonicalHeaderKeyIdempotent` | body.go:29 | canonicalising a header key twice is the same as once, so `Header.Get` with a canonical key finds the same entry |
| `Text.CanonicalHeaderKeyIgnoresCase` | value.go:147-152 | for token keys, a lower-cased key canonicalises like the original, so `Header.Get` ignores case |
| `Data.Zero` | value.go:253-262 | the default of a resolver has the declared type, and only interface types have nil as their zero value |
| `Errors.NewError` | error.go:174-178 | a new error carries the message and no status, code, reason, path, extras or server mark |
| `Errors.BuildersWriteOneField` | error.go:49-104 | each builder changes one field: builders of different fields commute, the last builder of a field wins, Server sets status 500, and Client clears only the server mark |
| `Errors.LogMessageLayout` | error.go:106-121 | the logged message is the error text (with " (reason)" when there is a reason), behind a "[path] " lead only when there is a path, and followed by " [code]" only when there is a code |
| `Errors.LogLine` | error.go:106-121 | an error writes a log line exactly when it is a server error, and the line starts with "Error: " and ends with a newline |
| `Errors.AsJSON` | error.go:129-146 | the exported map always has "error"; "code" and "reason" appear exactly when non-empty; extras are copied over and win on a clash; no other key appears |
| `Errors.ResponseJSON` | error.go:148-164 | the response map has the same keys as AsJSON; a client error exports AsJSON unchanged; a server error replaces "error" with the client message, else the status text, else "Unknown error" |
| `ContextStore.GetAllData` | context.go:18-28 | a request with no stored map reads as an empty map, and one with a map reads that map |
| `ContextStore.GetData` | context.go:31-38 | a present key yields its value when it has the asked type and panics otherwise; an absent key yields the fallback and a server error naming the key and carrying the request path |
| `ContextStore.WriteBack` | context.go:57-61 | after a write-back the new request reads back exactly the written map and keeps its path |
| `ContextStore.GetDataFromData` | context.go:31-38 | GetData depends only on the stored map's entry for the key and on the request path |
| `ContextStore.PatchValueReadBack` | context.go:41-46 | after PatchValue the key reads back the patched value, and every other key reads as before |
| `ContextStore.PatchMapReadBack` | context.go:49-54 | after PatchMap the data holds the union of the keys; patched keys carry the new values and the others keep their old ones |
| `ContextStore.PatchValueAliasesParent` | context.go:41-46 | the parent request sees the patch exactly when it already had a data map, because the map is shared; a parent without one still reads nothing |
| `ContextStore.PatchValueFrame` | context.go:41-46 | a patch leaves every other request's distinct data map untouched |
| `Coerce.AssertAs` | reader.go:23 | asserting a parsed value to T succeeds exactly when the value is a T, returns it unchanged, and panics otherwise |
| `Coerce.ReadValue` | reader.go:11-41 | a value already of the target type is returned unchanged, and every error result carries the fallback |
| `Coerce.ReadValueInteger` | reader.go:16-23 | integer targets parse the value's text in base 10: a parse failure gives the fallback and a ParseInt error; a parsed int64 is returned for an int64 target, and int and int32 targets panic |
| `Coerce.ReadValueDecimalString` | reader.go:18-23 | a string coerces to an int64 exactly when it is a decimal literal in range, and to its value; every other string is a ParseInt error |
| `Coerce.ReadValueIntRoundTrip` | reader.go:16-23 | coercing the decimal text of any int64 gives the integer back |
| `Coerce.ReadValueBool` | reader.go:30-35 | a bool target succeeds exactly on the strings ParseBool accepts, with their value, and otherwise gives the fallback and a ParseBool syntax error |
| `Coerce.ReadValueStringPanics` | reader.go:36-37 | a string target is reached only for a non-string value, and its assertion always panics |
| `Coerce.ReadValueOtherKinds` | reader.go:40 | a struct, pointer, map, slice, func or interface target that does not match gives the fallback and no error |
| `Coerce.ExportedNamesMembers` | reader.go:52-57 | every listed key is the lower-cased name of an exported field, and every exported field is listed |
| `Coerce.FieldKeys` | reader.go:44-51 | field keys exist exactly when the type, with one pointer level unwrapped, is a struct; a struct or pointer-to-struct always has them |
| `Coerce.ReadFields` | reader.go:44-60 | the loop over the fields lists the exported names, lower-cased, in declaration order; a non-struct gives no keys, where NumField panics |
| `BodyRules.PrepareBody` | body.go:27-60 | a request without a body is returned untouched; a multipart body, and else a URL-encoded one, succeeds exactly when its form parsing does, with the parsed forms recorded and the body drained, and fails with the parser's error; a JSON or untyped body already decoded is returned as is, otherwise it succeeds exactly when decoding does, storing the decoded map and keeping the forms; other content types pass through; success never alters the method, path, query, headers, path values or context data |
| `BodyRules.URLEncodedNotMultipart` | body.go:32-38 | the URL-encoded content type does not contain the multipart type, so it reaches its own case of the switch |
| `BodyRules.PrepareBodyJSONOnce` | body.go:44-48 | preparing a prepared JSON request again returns it unchanged |
| `BodyRules.BodyRead` | body.go:72-86 | a key is found exactly when it is in the form, the post form or the JSON body, in that order of precedence; a missing JSON key reads nil and a request with no body data reads "" |
| `BodyRules.PreparedJSONReads` | body.go:44-55 | after PrepareBody decodes a JSON or untyped body, BodyRead returns the decoded entry for each key, and nil with "not found" for a missing key |
| `BodyRules.PreparedFormReads` | body.go:38-42 | after PrepareBody parses a URL-encoded body, BodyRead finds a key in the parsed form, then the parsed post form, and only then in earlier JSON data |
| `BodyRules.FormFields` | body.go:103-111 | the struct form values hold exactly the field keys present in the form or post form, each with the value BodyRead gives |
| `BodyRules.BodyReadStruct` | body.go:89-119 | no body gives the decode error; a JSON body binds the decoded map, or fails when none was decoded; a form body panics exactly when the target is not a struct |
| `BodyRules.BodyReadStructForm` | body.go:103-118 | for a struct target on a form body, the form values of its exported fields are bound, or the decode error is returned when there are none |
| `Resolution.NewValue` | value.go:253-262 | NewValue panics exactly for an interface type, whose nil zero value fails the assertion back to T; otherwise the resolver is required, has no alias, reader or validator, defaults to the zero value of its type and publishes under its field |
| `Resolution.ConstructorsDiffer` | value.go:264-297 | for a non-interface type every constructor builds a resolver, and they differ only in source and field; a struct resolver has an empty key until As names it; Optional keeps the key |
| `Resolution.InterfaceConstructorsPanic` | value.go:264-302 | for an interface type every constructor, Reader included, panics in NewValue |
| `Resolution.Reader` | value.go:300-302 | Reader panics exactly when NewValue does, and otherwise installs the custom reader on an unpublished resolver of the type |
| `Resolution.QueryFields` | value.go:137-140 | a struct from the query gets every query key with its first value |
| `Resolution.PathFields` | value.go:141-146 | a struct from the path gets exactly the field keys with a non-empty path value, each with that value |
| `Resolution.HeaderFields` | value.go:147-152 | a struct from headers gets exactly the field keys with a non-empty canonical header, each with its first value |
| `Resolution.ContextFields` | value.go:153-160 | a struct from the context succeeds exactly when every field key is stored with a non-nil value, and then copies the stored values; otherwise the first key that is missing or nil decides: a missing one fails with its missing-key error and a nil map, a nil one panics |
| `Resolution.BindFields` | value.go:163-169 | no collected value gives the resolver's failure error; any error returns the default |
| `Resolution.ReadScalar` | value.go:171-196 | an absent query key, a body field BodyRead misses, an empty path wildcard, an absent header key and the default source itself each fail with the field's "value_failed" error and the default; a present raw value (the query's first value, the body value, the wildcard, the header's first value) is exactly what ReadValue makes of it; a context read is GetData; a header read panics exactly when the exact key holds no value or its coercion panics |
| `Resolution.ReadDefault` | value.go:200-219 | a request with a body reads the body; otherwise the query, and if that fails, the path |
| `Resolution.Resolve` | value.go:221-250 | a custom reader decides alone; a read error is reported only for a required resolver, and an optional one yields its default without error; a successful read is passed to the validator, whose error returns the default; it panics exactly when the read panics or the validator panics on the value read |
| `Resolution.OptionalNeverFails` | value.go:234-240 | an optional resolver without reader or validator never reports an error |
| `Resolution.GetIntRoundTrip` | value.go:172-174 | an int64 query resolver returns the integer whose decimal text is the first query value |
| `Resolution.GetIntRejects` | value.go:172-174 | a first query value that is not an in-range decimal gives the zero default and a number error |
| `Resolution.PathStringResolves` | value.go:181-184 | a string path resolver returns a non-empty path value unchanged |
| `Resolution.HeaderScalarExactKey` | value.go:186-196 | a scalar header resolver whose exact key is absent fails with the value-failed error and the zero default |
| `Resolution.HeaderScalarEmptyPanics` | value.go:187-189 | a scalar header resolver whose key is present with no values panics |
| `Resolution.ContextReadsPatch` | value.go:191-192 | a context resolver for a non-interface type returns what PatchValue stored under its key |
| `Resolution.DefaultFallsBackToPath` | value.go:204-218 | without a body or a query value, a default-source resolver finds the path value |
| `Resolution.StructEmptyQuery` | value.go:136-140 | a struct read from an empty query collects nothing and fails with the value-failed error |
| `Collect.CollectFrom` | values.go:12-20 | collection succeeds exactly when every published resolver resolves; otherwise the first published resolver that does not resolve decides: its error with a nil map, or its panic |
| `Collect.CollectKeys` | values.go:12-18 | a clean collection adds exactly the aliases of the published resolvers |
| `Collect.Values` | values.go:9-23 | Values succeeds exactly when every resolver with a non-empty key resolves, and then maps exactly those keys; otherwise it returns the first such resolver's error with a nil map, or its panic |
| `Collect.CollectSnoc` | values.go:12-18 | appending a resolver changes nothing when it is unpublished; otherwise its value is added under its key, or its error ends the collection |
| `Collect.ValuesLastWins` | values.go:18 | when two resolvers share a key, the later one decides the value |
| `Collect.ValuesAs` | values.go:26-33 | an error from Values is returned before any binding; otherwise ValuesAs succeeds exactly when binding the map does |
| `Collect.ReadRequest` | values.go:36-41 | ReadRequest builds a custom reader for the request type with an empty key, so Values skips it |
| `Collect.ReadContext` | values.go:44-49 | ReadContext, as written, panics in NewValue[context.Context] before any resolver exists |
| `Collect.ReadContextFixed` | values.go:44-49 | the corrected ReadContext is a custom reader for the context type with a nil default and an empty key, so Values skips it |
| `Collect.ReadContextPanics` | values.go:44-49 | for every request, ReadContext panics while the corrected resolver returns the request's context |
| `Collect.RequestAndContextReaders` | values.go:36-49 | ReadRequest and the corrected ReadContext return the request's own parts for any request, are skipped by Values, and are published once given an alias |
| `Responses.WriteData` | writer.go:20-33 | a marshal error is returned and the writer is untouched; otherwise the data is written, and an HTTP writer with no status yet gets the JSON content type |
| `Responses.LogError` | writer.go:76-83 | a response error logs one line exactly when it is a server error; any other error logs "[ERR] message"; nothing else about the writer changes |
| `Responses.ErrorBody` | writer.go:40-48 | the error body always has "error"; an error without a JSON form sends only its message |
| `Responses.WriteError` | writer.go:37-59 | with no positive status or no HTTP writer, WriteError logs and then writes the body; it panics exactly when a fresh HTTP writer gets a status outside 100..999 |
| `Responses.WriteSingle` | writer.go:61-73 | WriteMessage and WriteErrorMessage write a one-entry object {"message" or "error": text}: they fail exactly when it does not marshal, leaving the writer as it was, and otherwise add it as the next chunk with status 200 if none was set |
| `Responses.WriteErrorOnFreshWriter` | writer.go:37-59 | on a fresh HTTP writer a response error sends its status and its exported JSON; a server error also logs one line |
| `Responses.WritePlainError` | writer.go:44-58 | a plain error carries no status, so a fresh HTTP writer answers 200 with {"error": message} after logging it |
| `Responses.StatusIsSetOnce` | writer.go:50-55 | an error written after a status was set cannot change that status |
| `Dispatch.InTypes` | handler.go:34-37 | the callback's expected inputs are the resolvers' types, in order |
| `Dispatch.Invalidate` | handler.go:26-56 | a remembered failure is returned again; a nil callback panics; a non-function is a server error; success holds exactly when the callback takes the resolvers' types and returns (JSON, error) or nothing, and nothing marks the handler as producing no output |
| `Dispatch.InvalidateIdempotent` | handler.go:26-56 | validating the validated state again gives the same outcome |
| `Dispatch.Arguments` | handler.go:59-82 | arguments are produced exactly when every resolver resolves or has its error forgiven by the failure hook; there is one per resolver, a forgiven one standing at its default; otherwise the first resolver that yields none decides: its error as the hook returns it, or its own panic or the hook's |
| `Dispatch.ServeHTTP` | handler.go:84-109 | ServeHTTP never reports an error; it panics exactly when validation, resolution (a resolver, a validator or the fail hook) or the error write panics, when the arguments do not fit the callback, or when the callback panics |
| `Dispatch.ResultJSON` | handler.go:98-107 | the callback's first result always passes the assertion to JSON, a nil map included |
| `Dispatch.Deliver` | handler.go:97-108 | a callback's panic goes on; a callback without results leaves the writer as it left it; otherwise its error is written, or else its JSON is added as the next chunk with status 200 if none was set, a JSON value that does not marshal leaving the writer unchanged; nothing is reported as an error |
| `Dispatch.ServeErrorSkipsCallback` | handler.go:85-95 | a validation error, or else a resolution error, is written to the response, and any callback of the same type gives the same response, so the callback is not called |
| `Dispatch.ServeZeroOutput` | handler.go:97-100 | for a callback without results the response is exactly what the callback wrote, or its panic |
| `Dispatch.ServeStructured` | handler.go:97-108 | for a (JSON, error) callback its error is written as the response, or else its JSON follows what it wrote, with status 200 if none was set; its panic goes on |
| `Dispatch.New` | handler.go:121-132 | New panics exactly when the callback fails validation, and otherwise keeps the callback and resolvers with a clean state |
| `Dispatch.ForgivenArgumentsNeverFail` | handler.go:63-79 | with a hook that forgives every error, Values never returns an error; it succeeds exactly when no resolver panics |
| `Dispatch.OnFail` | handler.go:19-23 | OnFail installs exactly the given hook and changes nothing else about the handler |
| `Dispatch.OnFailForgives` | handler.go:20-23 | a handler given a forgiving hook through OnFail never stops on a resolution error |
| `Dispatch.NewAcceptsTwoSignatures` | handler.go:34-52 | New accepts exactly the two callback signatures, and only the bare one is marked as having no output |
| `Dispatch.NewIsValidated` | handler.go:121-132 | a handler New returns passes validation |
| `Dispatch.HelloExample` | handler.go:114-120 | the documented example answers ?name=n with status 200 and {"hello": n} |
| `Dispatch.ServeJSON` | handler.go:84-109 | a valid handler whose callback returns a JSON map answers with that map after what the callback wrote, and with status 200 when none was set |
| `Middleware.MPassesThrough` | middleware.go:18-24 | M gives the function the same exchange, request and next handler, and serves whatever it leaves, dropping the error it reports |
| `Middleware.Respond` | middleware.go:28-37 | MM passes a clean result through, and writes an error result to the response as WriteError does |
| `Middleware.ChainIsNest` | middleware.go:40-55 | a chain serves as its middlewares nested around the handler, and an empty chain is the handler itself |
| `Middleware.ChainOne` | middleware.go:40-55 | a chain of one middleware is that middleware |
| `Middleware.NestAppend` | middleware.go:47-51 | nesting a concatenation nests the second part inside the first |
| `Middleware.Wrap` | middleware.go:47-51 | the wrapping loop from the last middleware to the first makes the first middleware outermost |
| `Middleware.NestRunsInOrder` | middleware.go:47-52 | nested logging middlewares run in list order before the handler |
| `Middleware.ChainRunsInOrder` | middleware.go:40-55 | a chained request passes through the middlewares in the order given |
| `Middleware.AuthRefuses` | middleware_test.go:12-20 | the test's auth middleware answers 403 with {"error": "auth token missing"} when the token header is absent |
| `Middleware.AuthPasses` | middleware_test.go:12-20 | with a token, the auth middleware patches it into the context and serves the next handler |
| `Middleware.AuthPassesToken` | middleware_test.go:21-25 | the chained "/me" handler answers 200 with {"token": t} for the token header t |
| `Middleware.MeServesToken` | middleware_test.go:21-25 | the "/me" handler returns the context token that was patched in |
| `RouteStats.StringLabels` | walk.go:25-32 | a printed route opens with "[MUX]" for a group, "[GET]" for a route with no method, and the method otherwise |
| `RouteStats.StringHostAndPath` | walk.go:34-39 | the host is printed in parentheses only when set, and the line ends with prefix, path, " - " and location |
| `RouteStats.RenderSegments` | walk.go:52-71 | the segment loop renders each segment: literal text as is, a wildcard as {name} or {name...}, an empty one as ""; an empty wildcard marks the route as a group |
| `RouteStats.BuildRouteStat` | walk.go:43-82 | a route stat is a group exactly when some segment is an empty wildcard; its path is "/" followed by the rendered segments joined by "/"; an unknown working directory keeps the location unchanged |
| `RouteStats.PathListsSegments` | walk.go:77 | splitting the path after its leading "/" gives back the rendered segments |
| `WalkSettings.NewWalkConfig` | walk_config.go:82-87 | a new configuration has an empty prefix and a fresh empty table, and leaves existing tables alone |
| `WalkSettings.Has` | walk_config.go:63-66 | Has holds exactly when the path is in the configuration's table |
| `WalkSettings.Get` | walk_config.go:69-71 | Get finds a mux exactly when Has holds, and returns the mux stored for the path |
| `WalkSettings.Set` | walk_config.go:57-60 | Set stores the mux under the path and keeps the rest of the table, and panics on a nil table |
| `WalkSettings.SetThenGet` | walk_config.go:57-71 | after Set the path reads back the mux, and every other path reads as before |
| `WalkSettings.FreshMapsNothing` | walk_config.go:82-87 | a new configuration has no path |
| `WalkSettings.CloneSharesMappings` | walk_config.go:74-79 | a clone shares its table with the original, so a Set through the clone is visible in the original |
| `WalkSettings.MakeRouteLoc` | walk_config.go:41-48 | with no working directory the location is the registered one, unchanged |

## Left out

- Reflection is not modelled. `reflect.Value.Call`, `reflect.TypeOf` and the
  `wIndexes` field walk over `http.ServeMux` internals are replaced by typed
  `TypeTag`/`Dyn` values and by a `Pattern` record holding what the walk reads.
- Several collaborators are `Env` parameters and are never computed:
  - JSON encoding and decoding;
  - `StructToStruct`;
  - `strconv.ParseFloat`;
  - `ParseForm` and `ParseMultipartForm`;
  - `http.StatusText`;
  - `fmt.Sprint` of floats and composite values.

  Their Go behaviour belongs to the standard library.
- Float formatting and floating point in general are left out. `ParseFloat`
  results are opaque values.
- The rest of walk.go is left out: `walkNode`, `walkChildren`, `Walk`,
  `WalkCollect` and `WriteStats`. They traverse the unexported structure of
  `http.ServeMux` by reflection.
- Two parts of walk_config.go are left out:
  - the `init` that reads `os.Getwd`;
  - the non-empty-working-directory branch of `makeRouteLoc`.

  Both depend on the file system. `filepath.Rel` is a parameter there.
- The branch of `buildRouteStat` that follows a method-less node's `emptyChild`
  is left out. It is reflection only.
- router.go, middlewares.go and utils.go are not part of this model. The
  caller frame that utils.go's `GetCaller` supplies to `Caller` is a
  parameter.
- `Errorf` formatting is not modelled as `fmt.Sprintf`. Each error message
  it builds is written out by concatenation where it is used.
- `Errors.Caller`: the `runtime.Caller` skip count is not modelled. The frame
  is given directly.
- Writes to the underlying writer never fail in the model. An `io.Writer`
  error from `w.Write` or from the log writer is left out. `WriteData`
  returns only the marshal error.
- The log writer of `LogError` and `Log` is the `logged` field of `Writer`.
  Go sends it to a separate `io.Writer` (`log.Writer()`, which is `os.Stderr` by default).
- `Text.Quote` handles only the printable characters `strconv.Quote` leaves
  alone, plus `"` and `\`. Control characters and non-ASCII escapes are not
  modelled. Quote only shapes error text.
- `Text.ToLower` lower-cases ASCII letters only. Go's `strings.ToLower` also
  maps non-ASCII letters.
- `Text.IsExported` treats a field as exported only when its name starts
  with an upper-case ASCII letter. `reflect.StructField.IsExported` accepts
  any Unicode upper-case letter, so a field such as `Ärger` is not listed by
  the model.
- `Responses.WriteHeader` lets the first call fix the status. `net/http`
  treats informational codes 100 to 199, other than 101, as interim
  responses that a later `WriteHeader` may follow. The model does not
  distinguish them.
- `Responses.WriteHeader`, `Responses.WriteError` and
  `Responses.StatusIsSetOnce` follow `httptest.ResponseRecorder`: once a
  status is set, a later `WriteHeader` is ignored, whatever its code. A
  `ResponseWriter` that checks the code before looking at the status it
  already sent would panic on a later code outside 100..999, for example
  a callback that calls `WriteHeader(201)` and then returns an error with
  status 1000. Such a writer is not modelled.
- Concurrency, `context.Context` deadlines and cancellation are left out.
- The trivial getters `Field`, `Type`, `Default`, `Required` and `Message`
  are not separate members. They are fields of the `Resolver` and
  `ResponseError` datatypes.

## Findings

| source | as written | input that shows it | evidently intended | confidence | as-written member | corrected member |
|---|---|---|---|---|---|---|
| values.go:44-49 | `ReadContext` builds its resolver with `NewValue[context.Context]`, whose assertion of the nil zero value to `context.Context` (value.go:258) panics | any call of `ReadContext()` | a resolver that hands the handler `r.Context()`, with a nil default | high; not executed | `Collect.ReadContext`, `Collect.ReadContextPanics` | `Collect.ReadContextFixed`, `Collect.RequestAndContextReaders` |

=== FILE: base.dfy ===
/** The optional-value wrapper used throughout the model for Go's nil-able
    results (a map that may be nil, a lookup that may miss). */
module Base {

  datatype Option<+T> = None | Some(value: T) {

    function GetOr(default: T): T {
      match this
      case Some(v) => v
      case None => default
    }
  }
}

=== FILE: body.dfy ===
/** Request bodies (body.go): parsing a POST, PUT or PATCH body once into the
    request, and reading single keys or whole structs out of it. */
module BodyRules {
  import opened Base
  import opened Text
  import opened Data
  import opened Errors
  import opened Collaborators
  import opened Coerce

  const ContentTypeJSON: string := "application/json"
  const ContentTypeURLEncoded: string := "application/x-www-form-urlencoded"
  const ContentTypeMultipart: string := "multipart/form-data"

  /** Only POST, PUT and PATCH requests carry a body the engine reads. */
  predicate HasBody(r: Request) {
    r.verb in ["POST", "PUT", "PATCH"]
  }

  function ContentType(r: Request): string {
    HeaderGet(r, "Content-Type")
  }

  /** The decoded JSON body stored in the request context, if any. */
  function BodyJSON(r: Request): Option<map<string, Dyn>> {
    r.ctx.json
  }

  /** The request with its body drained and the parsed forms recorded. */
  function WithForms(r: Request, f: Forms): Request {
    r.(form := Some(f.form), postForm := Some(f.postForm), body := "")
  }

  /** The URL-encoded content type is not caught by the multipart case,
      which PrepareBody tests first. */
  lemma URLEncodedNotMultipart()
    ensures !Contains(ContentTypeURLEncoded, ContentTypeMultipart)
  {
    var s := ContentTypeURLEncoded;
    assert |s| - |ContentTypeMultipart| == 14;
    assert forall i :: 0 <= i <= 14 ==> s[i] != 'm';
    AbsentFirstChar(s, ContentTypeMultipart);
  }

  /** PrepareBody: parse the body once, by content type. */
  function PrepareBody(env: Env, r: Request): (res: Result<Request>)
    ensures !HasBody(r) ==> res == Success(r)
    ensures res.Success? ==>
              && res.value.verb == r.verb && res.value.path == r.path
              && res.value.query == r.query && res.value.header == r.header
              && res.value.pathValues == r.pathValues && res.value.ctx.data == r.ctx.data
    ensures HasBody(r) && Contains(ContentType(r), ContentTypeMultipart) ==>
              && (res.Success? <==> env.parseMultipart(r).Success?)
              && (res.Success? ==> res.value == WithForms(r, env.parseMultipart(r).value))
              && (res.Failure? ==> res.error == env.parseMultipart(r).error)
    ensures HasBody(r) && ContentType(r) == ContentTypeURLEncoded ==>
              && (res.Success? <==> env.parseForm(r).Success?)
              && (res.Success? ==> res.value == WithForms(r, env.parseForm(r).value))
              && (res.Failure? ==> res.error == env.parseForm(r).error)
    ensures HasBody(r) && (ContentType(r) == ContentTypeJSON || ContentType(r) == "") && BodyJSON(r).None? ==>
              && (res.Success? <==> env.decodeJSON(r.body).Success?)
              && (res.Success? ==> BodyJSON(res.value) == env.decodeJSON(r.body).value
                                   && res.value.form == r.form && res.value.postForm == r.postForm)
              && (res.Failure? ==> res.error == env.decodeJSON(r.body).error)
    ensures HasBody(r) && (ContentType(r) == ContentTypeJSON || ContentType(r) == "") && BodyJSON(r).Some? ==>
              res == Success(r)
    ensures HasBody(r) && !Contains(ContentType(r), ContentTypeMultipart)
            && ContentType(r) !in [ContentTypeURLEncoded, ContentTypeJSON, ""] ==>
              res == Success(r)
  {
    if !HasBody(r) then Success(r)
    else
      URLEncodedNotMultipart();
      var cType := ContentType(r);
      if Contains(cType, ContentTypeMultipart) then
        match env.parseMultipart(r)
        case Failure(e) => Failure(e)
        case Success(f) => Success(WithForms(r, f))
      else if cType == ContentTypeURLEncoded then
        match env.parseForm(r)
        case Failure(e) => Failure(e)
        case Success(f) => Success(WithForms(r, f))
      else if cType == ContentTypeJSON || cType == "" then
        if BodyJSON(r).Some? then Success(r)
        else
          match env.decodeJSON(r.body)
          case Failure(e) => Failure(e)
          case Success(d) => Success(r.(body := "", ctx := r.ctx.(json := d)))
      else Success(r)
  }

  /** A JSON body, once decoded into the context, is not decoded again: a
      second PrepareBody leaves the request as the first one left it. */
  lemma PrepareBodyJSONOnce(env: Env, r: Request)
    requires HasBody(r) && (ContentType(r) == ContentTypeJSON || ContentType(r) == "")
    requires PrepareBody(env, r).Success? && BodyJSON(PrepareBody(env, r).value).Some?
    ensures PrepareBody(env, PrepareBody(env, r).value) == PrepareBody(env, r)
  {
  }

  /** Has on a form that may still be nil. */
  predicate FormHas(vals: Option<Values>, key: string) {
    vals.Some? && key in vals.value
  }

  /** BodyRead: the form, then the post form, then the JSON body. The flag
      says whether the key was found; a missing JSON key reads as nil and a
      request with no parsed body reads as "". */
  function BodyRead(r: Request, key: string): (res: (Dyn, bool))
    ensures res.1 <==> FormHas(r.form, key) || FormHas(r.postForm, key)
                       || (BodyJSON(r).Some? && key in BodyJSON(r).value)
    ensures FormHas(r.form, key) ==> res.0 == DStr(First(r.form.value[key]))
    ensures !FormHas(r.form, key) && FormHas(r.postForm, key) ==> res.0 == DStr(First(r.postForm.value[key]))
    ensures !FormHas(r.form, key) && !FormHas(r.postForm, key) && BodyJSON(r).Some? ==>
              res.0 == (if key in BodyJSON(r).value then BodyJSON(r).value[key] else DNil)
    ensures !res.1 && BodyJSON(r).None? ==> res.0 == DStr("")
  {
    if FormHas(r.form, key) then (DStr(Lookup(r.form.value, key)), true)
    else if FormHas(r.postForm, key) then (DStr(Lookup(r.postForm.value, key)), true)
    else match BodyJSON(r)
      case Some(d) => if key in d then (d[key], true) else (DNil, false)
      case None => (DStr(""), false)
  }

  /** After a JSON body decodes to an object, each of its keys that no form
      shadows reads back as the decoded value. */
  lemma PreparedJSONReads(env: Env, r: Request, key: string)
    requires HasBody(r) && (ContentType(r) == ContentTypeJSON || ContentType(r) == "") && BodyJSON(r).None?
    requires env.decodeJSON(r.body).Success? && env.decodeJSON(r.body).value.Some?
    requires !FormHas(r.form, key) && !FormHas(r.postForm, key)
    ensures var d := env.decodeJSON(r.body).value.value;
      && PrepareBody(env, r).Success?
      && BodyRead(PrepareBody(env, r).value, key) == (if key in d then (d[key], true) else (DNil, false))
  {
  }

  /** After a URL-encoded body parses, BodyRead finds a key in the parsed
      form first, then in the parsed post form, and only then in a JSON body
      decoded earlier. */
  lemma PreparedFormReads(env: Env, r: Request, key: string)
    requires HasBody(r) && ContentType(r) == ContentTypeURLEncoded
    requires env.parseForm(r).Success?
    ensures var f := env.parseForm(r).value;
      && PrepareBody(env, r).Success?
      && BodyRead(PrepareBody(env, r).value, key) ==
           if key in f.form then (DStr(First(f.form[key])), true)
           else if key in f.postForm then (DStr(First(f.postForm[key])), true)
           else BodyRead(r.(form := None, postForm := None), key)
  {
  }

  /** The form fields among keys, each read with BodyRead's precedence. */
  function FormFields(r: Request, keys: seq<string>): (values: map<string, Dyn>)
    ensures forall k :: k in values <==> k in keys && (FormHas(r.form, k) || FormHas(r.postForm, k))
    ensures forall k :: k in values ==> values[k] == BodyRead(r, k).0
  {
    if |keys| == 0 then map[]
    else
      var rest := FormFields(r, keys[1..]);
      var k := keys[0];
      if FormHas(r.form, k) then rest[k := DStr(Lookup(r.form.value, k))]
      else if FormHas(r.postForm, k) then rest[k := DStr(Lookup(r.postForm.value, k))]
      else rest
  }

  function DecodeFailed(): Error {
    Plain("failed to decode body")
  }

  /** StructToStruct(src, &data) on a fresh data of type t. */
  function Bind(env: Env, src: Dyn, t: TypeTag): (res: Ret<Dyn>)
    ensures res.Ret?
    ensures res.Succeeded() <==> env.structToStruct(src, Zero(t)).Success?
  {
    match env.structToStruct(src, Zero(t))
    case Success(d) => Ok(d)
    case Failure(e) => Fail(Zero(t), e)
  }

  /** BodyReadStruct(r, &data) for data of type t: the filled-in data or the
      error. Field names are listed from the pointer's type, so a pointer
      type t makes ReadFields panic on a form body. */
  function BodyReadStruct(env: Env, r: Request, t: TypeTag): (res: Ret<Dyn>)
    ensures !HasBody(r) ==> res == Fail(Zero(t), DecodeFailed())
    ensures HasBody(r) && ContentType(r) == ContentTypeJSON ==>
              res == (match BodyJSON(r)
                      case None => Fail(Zero(t), DecodeFailed())
                      case Some(j) => Bind(env, DMap(true, j), t))
    ensures res.Panicked? <==> HasBody(r) && ContentType(r) != ContentTypeJSON && !t.TStruct?
  {
    if !HasBody(r) then Fail(Zero(t), DecodeFailed())
    else if ContentType(r) == ContentTypeJSON then
      match BodyJSON(r)
      case None => Fail(Zero(t), DecodeFailed())
      case Some(j) => Bind(env, DMap(true, j), t)
    else
      match FieldKeys(TPtr(t))
      case None => Panicked("reflect: NumField of non-struct type " + TypeString(t))
      case Some(keys) =>
        var values := FormFields(r, keys);
        if |values| > 0 then Bind(env, DMap(false, values), t) else Fail(Zero(t), DecodeFailed())
  }

  /** A struct read from a form body binds exactly the exported fields the
      forms carry, and fails when they carry none. */
  lemma BodyReadStructForm(env: Env, r: Request, t: TypeTag)
    requires HasBody(r) && ContentType(r) != ContentTypeJSON && t.TStruct?
    ensures var values := FormFields(r, ExportedNames(t.fields));
      && (forall k :: k in values <==> k in ExportedNames(t.fields) && (FormHas(r.form, k) || FormHas(r.postForm, k)))
      && BodyReadStruct(env, r, t) ==
           (if |values| > 0 then Bind(env, DMap(false, values), t) else Fail(Zero(t), DecodeFailed()))
  {
  }
}

=== FILE: collaborators.dfy ===
/** The standard-library services the engine calls but that lie outside this
    model, passed in as functions: JSON encoding and decoding, float
    parsing and printing, form parsing, and the HTTP status-text table. */
module Collaborators {
  import opened Base
  import opened Text
  import opened Data
  import opened Errors

  /** What Request.ParseForm / ParseMultipartForm leave in Form and PostForm. */
  datatype Forms = Forms(form: Values, postForm: Values)

  datatype Env = Env(
    /** fmt.Sprint of a value that is not a string, integer, bool or nil. */
    sprint: Dyn -> string,
    /** strconv.ParseFloat(s, 64). */
    parseFloat: string -> Parsed<real>,
    /** StructToStruct(src, &dst) (utils.go): marshal src to JSON and
        unmarshal it over dst, giving the updated dst. */
    structToStruct: (Dyn, Dyn) -> Result<Dyn>,
    /** The error json.Marshal reports for a value, if any. */
    marshal: Dyn -> Option<Error>,
    /** json.Decoder.Decode of a body into JSON; None for a literal null. */
    decodeJSON: string -> Result<Option<map<string, Dyn>>>,
    /** Request.ParseForm. */
    parseForm: Request -> Result<Forms>,
    /** Request.ParseMultipartForm(0). */
    parseMultipart: Request -> Result<Forms>,
    /** http.StatusText. */
    statusText: int -> string)
}

=== FILE: context.dfy ===
/** The request-scoped data store (context.go): a JSON map kept in the
    request's context under the default key. Go maps are references, so the
    map is held in a Store and the context keeps its index; PatchValue and
    PatchMap write into the map they fetched, which the parent request
    still refers to. */
module ContextStore {
  import opened Base
  import opened Data
  import opened Errors

  /** The index of the request's data map, when it has one in the store. */
  function DataRef(st: Store, r: Request): (ref: Option<nat>)
    ensures ref.Some? ==> ref.value < |st| && r.ctx.data == ref
  {
    if r.ctx.data.Some? && r.ctx.data.value < |st| then r.ctx.data else None
  }

  /** GetAllData: the stored map, or a fresh empty one when none is stored. */
  function GetAllData(st: Store, r: Request): (data: map<string, Dyn>)
    ensures DataRef(st, r).None? ==> data == map[]
    ensures DataRef(st, r).Some? ==> data == st[DataRef(st, r).value]
  {
    match DataRef(st, r)
    case Some(i) => st[i]
    case None => map[]
  }

  /** The error GetData reports for a missing key: a server error whose path
      is the request's URL path. */
  function MissingData(r: Request, key: string): Error {
    Response(Path(Server(NewError("unable to find context data: " + key)), r.path))
  }

  /** GetData[T](r, key, fb): the stored value asserted to T, which panics
      when it is not a T; the fallback and a server error when key is absent. */
  function GetData(st: Store, r: Request, key: string, t: TypeTag, fb: Dyn): (res: Ret<Dyn>)
    ensures key in GetAllData(st, r) && Asserts(GetAllData(st, r)[key], t) ==>
              res == Ok(GetAllData(st, r)[key])
    ensures key in GetAllData(st, r) && !Asserts(GetAllData(st, r)[key], t) ==> res.Panicked?
    ensures key !in GetAllData(st, r) ==> res == Fail(fb, MissingData(r, key))
  {
    var data := GetAllData(st, r);
    if key in data then
      if Asserts(data[key], t) then Ok(data[key]) else Panicked("interface conversion: context data is not " + TypeString(t))
    else Fail(fb, MissingData(r, key))
  }

  /** A request handle derived by a context write, with the store it sees. */
  datatype Patched = Patched(st: Store, req: Request)

  /** Patch(r, ContextValueDefault, ref): a request whose context holds data map ref. */
  function PatchData(r: Request, ref: nat): Request {
    r.(ctx := r.ctx.(data := Some(ref)))
  }

  /** Writes a data map back as Patch does after GetAllData: into the fetched
      map when the request had one, otherwise into a fresh map. */
  function WriteBack(st: Store, r: Request, data: map<string, Dyn>): (p: Patched)
    ensures DataRef(p.st, p.req).Some?
    ensures GetAllData(p.st, p.req) == data
    ensures p.req.path == r.path
  {
    match DataRef(st, r)
    case Some(i) => Patched(st[i := data], PatchData(r, i))
    case None => Patched(st + [data], PatchData(r, |st|))
  }

  /** PatchValue(r, key, value). */
  function PatchValue(st: Store, r: Request, key: string, value: Dyn): Patched {
    WriteBack(st, r, GetAllData(st, r)[key := value])
  }

  /** PatchMap(r, value): maps.Copy of value over the current data. */
  function PatchMap(st: Store, r: Request, value: map<string, Dyn>): Patched {
    WriteBack(st, r, GetAllData(st, r) + value)
  }

  /** GetData depends only on the data map and the URL path. */
  lemma GetDataFromData(st: Store, r: Request, st': Store, r': Request, k: string, t: TypeTag, fb: Dyn)
    requires r'.path == r.path
    requires k in GetAllData(st, r) <==> k in GetAllData(st', r')
    requires k in GetAllData(st, r) ==> GetAllData(st, r)[k] == GetAllData(st', r')[k]
    ensures GetData(st', r', k, t, fb) == GetData(st, r, k, t, fb)
  {
  }

  /** After PatchValue the new request reads value back under key and sees
      every other key as before. */
  lemma PatchValueReadBack(st: Store, r: Request, key: string, value: Dyn, t: TypeTag, fb: Dyn)
    requires Asserts(value, t)
    ensures var p := PatchValue(st, r, key, value);
      && GetAllData(p.st, p.req) == GetAllData(st, r)[key := value]
      && GetData(p.st, p.req, key, t, fb) == Ok(value)
      && forall k :: k != key ==> GetData(p.st, p.req, k, t, fb) == GetData(st, r, k, t, fb)
  {
    var p := PatchValue(st, r, key, value);
    forall k | k != key
      ensures GetData(p.st, p.req, k, t, fb) == GetData(st, r, k, t, fb)
    {
      GetDataFromData(st, r, p.st, p.req, k, t, fb);
    }
  }

  /** PatchMap yields the old data with the given entries overriding same-named keys. */
  lemma PatchMapReadBack(st: Store, r: Request, value: map<string, Dyn>)
    ensures var p := PatchMap(st, r, value);
      && GetAllData(p.st, p.req).Keys == GetAllData(st, r).Keys + value.Keys
      && (forall k :: k in value ==> GetAllData(p.st, p.req)[k] == value[k])
      && (forall k :: k in GetAllData(st, r) && k !in value ==>
            GetAllData(p.st, p.req)[k] == GetAllData(st, r)[k])
  {
  }

  /** A request whose context refers to a map of the store, if to any. */
  predicate ValidIn(st: Store, r: Request) {
    r.ctx.data.Some? ==> r.ctx.data.value < |st|
  }

  /** The parent of a patched request observes the write exactly when it
      already had a data map; a request without one keeps reading nothing. */
  lemma PatchValueAliasesParent(st: Store, r: Request, key: string, value: Dyn)
    requires ValidIn(st, r)
    ensures var p := PatchValue(st, r, key, value);
      && (DataRef(st, r).Some? ==> GetAllData(p.st, r) == GetAllData(p.st, p.req))
      && (DataRef(st, r).None? ==> GetAllData(p.st, r) == map[])
  {
  }

  /** A request holding another map is unaffected by a patch. */
  lemma PatchValueFrame(st: Store, r: Request, q: Request, key: string, value: Dyn)
    requires DataRef(st, q).Some? && DataRef(st, q) != DataRef(st, r)
    ensures GetAllData(PatchValue(st, r, key, value).st, q) == GetAllData(st, q)
  {
  }
}

=== FILE: data.dfy ===
/** Runtime types and values, standing in for Go's reflection: a closed set
    of type descriptors, a tagged dynamic value (Go's `any`), and the HTTP
    request with the two values the package keeps in its context. */
module Data {
  import opened Base
  import opened Text

  datatype IntWidth = Int | Int32 | Int64
  datatype FloatWidth = Float32 | Float64

  /** reflect.Kind, for the kinds the engine tells apart. */
  datatype Kind =
    | KInt | KInt32 | KInt64 | KFloat32 | KFloat64 | KBool | KString
    | KStruct | KPtr | KMap | KSlice | KFunc | KInterface

  datatype StructField = StructField(name: string, ftype: TypeTag)

  /** A Go type (reflect.Type); two tags are equal exactly when the types are identical. */
  datatype TypeTag =
    | TInt(iw: IntWidth)
    | TFloat(fw: FloatWidth)
    | TBool
    | TString
    | TStruct(sname: string, fields: seq<StructField>)
    | TPtr(elem: TypeTag)
    | TMap(named: bool)                // hndlor.JSON when named, else map[string]interface {}
    | TList                            // []interface {}
    | TIface(iname: string)            // an interface type such as error or context.Context
    | TFunc(ins: seq<TypeTag>, outs: seq<TypeTag>, variadic: bool)

  const AnyType: TypeTag := TIface("interface {}")
  const ErrorType: TypeTag := TIface("error")
  const JSONType: TypeTag := TMap(true)
  const RequestType: TypeTag := TPtr(TStruct("http.Request", []))
  const ContextType: TypeTag := TIface("context.Context")
  /** The dynamic type of the context a request carries. */
  const ContextImplType: TypeTag := TPtr(TStruct("context.valueCtx", []))

  function KindOf(t: TypeTag): Kind {
    match t
    case TInt(w) => (match w case Int => KInt case Int32 => KInt32 case Int64 => KInt64)
    case TFloat(w) => (match w case Float32 => KFloat32 case Float64 => KFloat64)
    case TBool => KBool
    case TString => KString
    case TStruct(_, _) => KStruct
    case TPtr(_) => KPtr
    case TMap(_) => KMap
    case TList => KSlice
    case TIface(_) => KInterface
    case TFunc(_, _, _) => KFunc
  }

  /** A struct type, or a pointer to one: the types bound field by field. */
  predicate IsStructLike(t: TypeTag) {
    t.TStruct? || (t.TPtr? && t.elem.TStruct?)
  }

  /** A Go value held in an interface (`any`). */
  datatype Dyn =
    | DNil                                      // the nil interface
    | DNilOf(nt: TypeTag)                       // a typed nil pointer, map, slice or func
    | DInt(iw: IntWidth, i: int)
    | DFloat(fw: FloatWidth, f: real)
    | DBool(b: bool)
    | DStr(s: string)
    | DMap(named: bool, m: map<string, Dyn>)
    | DList(items: seq<Dyn>)
    | DStruct(stype: TypeTag, fieldValues: map<string, Dyn>)   // absent fields hold their zero value
    | DPtr(target: TypeTag, pointee: Dyn)       // a non-nil pointer to a value of type target
    | DRequest(req: Request)
    | DContext(ctx: Ctx)
    | DOpaque(otype: TypeTag, id: nat)          // a value whose contents the model does not inspect

  /** url.Values and http.Header: each key maps to its list of values. */
  type Values = map<string, seq<string>>

  /** The two entries the package keeps in a request's context.Context: the
      default data map, by reference into a Store, and the decoded JSON body. */
  datatype Ctx = Ctx(data: Option<nat>, json: Option<map<string, Dyn>>)

  /** The data maps request contexts refer to. Go maps are references, so
      two requests whose contexts hold the same index share one map. */
  type Store = seq<map<string, Dyn>>

  /** An *http.Request as the engine sees it. */
  datatype Request = Request(
    verb: string,                      // Method
    path: string,                      // URL.Path
    query: Values,                     // URL.Query()
    header: Values,
    form: Option<Values>,              // Form, nil until parsed
    postForm: Option<Values>,          // PostForm, nil until parsed
    pathValues: map<string, string>,   // wildcards matched by the multiplexer
    body: string,
    ctx: Ctx)

  /** reflect.TypeOf: None for the nil interface. */
  function TypeOf(v: Dyn): Option<TypeTag> {
    match v
    case DNil => None
    case DNilOf(t) => Some(t)
    case DInt(w, _) => Some(TInt(w))
    case DFloat(w, _) => Some(TFloat(w))
    case DBool(_) => Some(TBool)
    case DStr(_) => Some(TString)
    case DMap(n, _) => Some(TMap(n))
    case DList(_) => Some(TList)
    case DStruct(t, _) => Some(t)
    case DPtr(t, _) => Some(TPtr(t))
    case DRequest(_) => Some(RequestType)
    case DContext(_) => Some(ContextImplType)
    case DOpaque(t, _) => Some(t)
  }

  /** The zero value of a type, as reflect.New(t).Elem() yields it. */
  function Zero(t: TypeTag): (z: Dyn)
    ensures !t.TIface? ==> TypeOf(z) == Some(t)
    ensures t.TIface? <==> z == DNil
  {
    match t
    case TInt(w) => DInt(w, 0)
    case TFloat(w) => DFloat(w, 0.0)
    case TBool => DBool(false)
    case TString => DStr("")
    case TStruct(_, _) => DStruct(t, map[])
    case TIface(_) => DNil
    case _ => DNilOf(t)
  }

  /** Whether a concrete type satisfies an interface, for the interfaces the
      engine asserts to. */
  predicate Implements(t: TypeTag, iface: string) {
    iface == "interface {}" || (iface == "context.Context" && t == ContextImplType)
  }

  /** Whether the type assertion `v.(t)` succeeds; a failing one panics. */
  predicate Asserts(v: Dyn, t: TypeTag) {
    match TypeOf(v)
    case None => false
    case Some(dt) => if t.TIface? then Implements(dt, t.iname) else dt == t
  }

  /** reflect.Type.String. */
  function TypeString(t: TypeTag): string
    decreases t, 1
  {
    match t
    case TInt(w) => (match w case Int => "int" case Int32 => "int32" case Int64 => "int64")
    case TFloat(w) => (match w case Float32 => "float32" case Float64 => "float64")
    case TBool => "bool"
    case TString => "string"
    case TStruct(n, _) => n
    case TPtr(e) => "*" + TypeString(e)
    case TMap(n) => if n then "hndlor.JSON" else "map[string]interface {}"
    case TList => "[]interface {}"
    case TIface(n) => n
    case TFunc(ins, outs, variadic) =>
      "func(" + Join(TypeStrings(t, ins), ", ") + (if variadic then "...)" else ")")
      + (if |outs| == 0 then ""
         else if |outs| == 1 then " " + TypeString(outs[0])
         else " (" + Join(TypeStrings(t, outs), ", ") + ")")
  }

  function TypeStrings(parent: TypeTag, ts: seq<TypeTag>): (r: seq<string>)
    requires forall i :: 0 <= i < |ts| ==> ts[i] < parent
    ensures |r| == |ts|
    decreases parent, 0, |ts|
  {
    if |ts| == 0 then [] else [TypeString(ts[0])] + TypeStrings(parent, ts[1..])
  }

  // ---------------------------------------------------------------- request accessors

  /** url.Values.Get and http.Header's first value: the first entry, or "". */
  function First(vs: seq<string>): string {
    if |vs| > 0 then vs[0] else ""
  }

  function Lookup(vals: Values, key: string): string {
    if key in vals then First(vals[key]) else ""
  }

  /** http.Header.Get: the first value under the canonical form of key. */
  function HeaderGet(r: Request, key: string): string {
    Lookup(r.header, CanonicalHeaderKey(key))
  }

  /** Request.PathValue: the matched wildcard, or "" when there is none. */
  function PathValue(r: Request, key: string): string {
    if key in r.pathValues then r.pathValues[key] else ""
  }
}

=== FILE: errors.dfy ===
/** The package's error values (error.go): ResponseError with its builders
    and its JSON export, the other error values the engine meets, and Go's
    calling convention of a (value, error) pair or a panic. */
module Errors {
  import opened Base
  import opened Text
  import opened Data

  /** ResponseError: a message plus what the response and the log show of it. */
  datatype ResponseError = ResponseError(
    message: string,
    path: string,
    reason: string,
    statusCode: int,
    errorCode: string,
    serverError: bool,
    clientMessage: string,
    extras: Option<map<string, Dyn>>)

  /** Error(msg): a client error carrying only its message. */
  function NewError(msg: string): (e: ResponseError)
    ensures e.message == msg && !e.serverError && e.statusCode == 0
    ensures e.path == "" && e.reason == "" && e.errorCode == "" && e.clientMessage == ""
    ensures e.extras.None?
  {
    ResponseError(msg, "", "", 0, "", false, "", None)
  }

  // ---------------------------------------------------------------- builders

  function Status(e: ResponseError, c: int): ResponseError { e.(statusCode := c) }
  function ErrorCode(e: ResponseError, c: string): ResponseError { e.(errorCode := c) }
  function Reason(e: ResponseError, r: string): ResponseError { e.(reason := r) }
  function Path(e: ResponseError, p: string): ResponseError { e.(path := p) }
  function Extras(e: ResponseError, d: map<string, Dyn>): ResponseError { e.(extras := Some(d)) }
  function ClientMessage(e: ResponseError, m: string): ResponseError { e.(clientMessage := m) }

  /** Server marks a server error, which also sets status 500. */
  function Server(e: ResponseError): ResponseError {
    e.(serverError := true, statusCode := 500)
  }

  /** Client clears the server mark and nothing else. */
  function Client(e: ResponseError): ResponseError { e.(serverError := false) }

  /** Caller records "file:line" as the path when the runtime reports a caller. */
  function Caller(e: ResponseError, frame: Option<(string, int)>): ResponseError {
    match frame
    case Some((file, line)) => Path(e, file + ":" + FormatInt(line))
    case None => e
  }

  /** Each builder writes one field: builders of different fields commute,
      a later builder of the same field wins, and Client undoes only the
      flag that Server set, keeping its status. */
  lemma BuildersWriteOneField(e: ResponseError, c: int, code: string, r: string, p: string, m: string)
    ensures Status(Reason(e, r), c) == Reason(Status(e, c), r)
    ensures ErrorCode(Path(e, p), code) == Path(ErrorCode(e, code), p)
    ensures ClientMessage(Status(e, c), m) == Status(ClientMessage(e, m), c)
    ensures Reason(Reason(e, r), m) == Reason(e, m)
    ensures Client(Server(e)).statusCode == 500 && !Client(Server(e)).serverError
    ensures Client(Server(e)).(statusCode := e.statusCode) == Client(e)
    ensures Status(Server(e), c).serverError && Status(Server(e), c).statusCode == c
  {
  }

  // ---------------------------------------------------------------- rendering

  /** ResponseError.Error: the message, with the reason in parentheses when there is one. */
  function ErrorText(e: ResponseError): string {
    if |e.reason| > 0 then e.message + " (" + e.reason + ")" else e.message
  }

  /** The message Log prints: "[path] msg (reason) [code]", each optional part
      present only when non-empty. */
  function LogMessage(e: ResponseError): string {
    var withReason := if |e.reason| > 0 then e.message + " (" + e.reason + ")" else e.message;
    var withPath := if |e.path| > 0 then "[" + e.path + "] " + withReason else withReason;
    if |e.errorCode| > 0 then withPath + " [" + e.errorCode + "]" else withPath
  }

  /** The error text sits in the logged message behind the "[path] " lead,
      which is there only for a non-empty path, and only a non-empty code
      follows it, as " [code]". */
  lemma LogMessageLayout(e: ResponseError)
    ensures var lead := if |e.path| > 0 then "[" + e.path + "] " else "";
      var s := LogMessage(e);
      && |lead| + |ErrorText(e)| <= |s|
      && s[..|lead|] == lead
      && s[|lead|..|lead| + |ErrorText(e)|] == ErrorText(e)
      && s[|lead| + |ErrorText(e)|..] == (if |e.errorCode| > 0 then " [" + e.errorCode + "]" else "")
  {
    var lead := if |e.path| > 0 then "[" + e.path + "] " else "";
    var tail := if |e.errorCode| > 0 then " [" + e.errorCode + "]" else "";
    assert LogMessage(e) == lead + ErrorText(e) + tail;
  }

  /** ResponseError.Log: one line for a server error, nothing for a client error. */
  function LogLine(e: ResponseError): (line: Option<string>)
    ensures line.Some? <==> e.serverError
    ensures line.Some? ==> |line.value| >= 8 && line.value[..7] == "Error: " && line.value[|line.value| - 1] == '\n'
  {
    if e.serverError then Some("Error: " + LogMessage(e) + "\n") else None
  }

  /** AsJSON: "error" always, "code" and "reason" when non-empty, then the
      extras, which override keys of the same name. */
  function AsJSON(e: ResponseError): (m: map<string, Dyn>)
    ensures "error" in m
    ensures forall k :: k in m ==> k in {"error", "code", "reason"} || (e.extras.Some? && k in e.extras.value)
    ensures e.extras.Some? ==> forall k :: k in e.extras.value ==> k in m && m[k] == e.extras.value[k]
    ensures e.extras.None? || "error" !in e.extras.value ==> m["error"] == DStr(e.message)
    ensures e.extras.None? || "code" !in e.extras.value ==>
              ("code" in m <==> |e.errorCode| > 0) && ("code" in m ==> m["code"] == DStr(e.errorCode))
    ensures e.extras.None? || "reason" !in e.extras.value ==>
              ("reason" in m <==> |e.reason| > 0) && ("reason" in m ==> m["reason"] == DStr(e.reason))
  {
    var base := map["error" := DStr(e.message)];
    var withCode := if |e.errorCode| > 0 then base["code" := DStr(e.errorCode)] else base;
    var withReason := if |e.reason| > 0 then withCode["reason" := DStr(e.reason)] else withCode;
    if e.extras.Some? then withReason + e.extras.value else withReason
  }

  /** The "error" text a server error exports in place of its message. */
  function ServerMessage(e: ResponseError, statusText: int -> string): string {
    if |e.clientMessage| > 0 then e.clientMessage
    else if e.statusCode > 0 then statusText(e.statusCode)
    else "Unknown error"
  }

  /** ResponseJSON: AsJSON, except that a server error never exports its own
      message: "error" becomes the client message, else the status text,
      else "Unknown error". */
  function ResponseJSON(e: ResponseError, statusText: int -> string): (m: map<string, Dyn>)
    ensures m.Keys == AsJSON(e).Keys
    ensures !e.serverError ==> m == AsJSON(e)
    ensures e.serverError ==> m["error"] == DStr(ServerMessage(e, statusText))
    ensures forall k :: k in m && k != "error" ==> m[k] == AsJSON(e)[k]
  {
    var m := AsJSON(e);
    if e.serverError then m["error" := DStr(ServerMessage(e, statusText))] else m
  }

  // ---------------------------------------------------------------- error values

  /** A Go `error` value as the engine meets it. */
  datatype Error =
    | Response(re: ResponseError)                         // *ResponseError: exportable and loggable
    | NumError(fn: string, num: string, kind: NumErrKind) // *strconv.NumError
    | Plain(msg: string)                                  // errors.New, JSON errors, user errors

  /** Whether the error implements AsExportableResponse. */
  predicate Exportable(err: Error) { err.Response? }

  /** Whether the error implements AsLoggable. */
  predicate Loggable(err: Error) { err.Response? }

  /** err.Error(). */
  function ErrorString(err: Error): string {
    match err
    case Response(e) => ErrorText(e)
    case NumError(fn, num, kind) =>
      "strconv." + fn + ": parsing " + Quote(num) + ": "
      + (if kind == ErrSyntax then "invalid syntax" else "value out of range")
    case Plain(msg) => msg
  }

  // ---------------------------------------------------------------- outcomes

  /** A Go call's outcome: its (value, error) pair, or a panic. */
  datatype Ret<T> = Ret(value: T, err: Option<Error>) | Panicked(why: string) {
    predicate Succeeded() { Ret? && err.None? }
    predicate Failed() { Ret? && err.Some? }
  }

  function Ok<T>(v: T): Ret<T> { Ret(v, None) }
  function Fail<T>(v: T, e: Error): Ret<T> { Ret(v, Some(e)) }

  /** A user function returning only an error: it returns one (None for
      nil), or panics. */
  datatype Outcome = Returns(err: Option<Error>) | Panics(why: string)

  /** An outcome that is a value or an error, never both (a collaborator's result). */
  datatype Result<T> = Success(value: T) | Failure(error: Error)
}

=== FILE: handler.dfy ===
/** Typed handlers (handler.go): a callback checked once against the types
    of its value resolvers, then called with the resolved values, its JSON
    result or error written to the response. */
module Dispatch {
  import opened Base
  import opened Text
  import opened Data
  import opened Errors
  import opened Collaborators
  import opened Resolution
  import opened Responses

  /** What a callback does: return, leaving the writer as it left it and,
      for the structured signature, its JSON result (None for a nil map)
      and error; or panic. */
  datatype CallOut = CallOut(w: Writer, data: Option<map<string, Dyn>>, err: Option<Error>) | CallPanics(why: string)

  /** A callback value: its dynamic type and what calling it does. */
  datatype Callback = Callback(ctype: TypeTag, call: (seq<Dyn>, Writer) -> CallOut)

  /** What Invalidate records on the handler: the remembered error and
      whether the callback returns nothing. */
  datatype Validation = Validation(err: Option<Error>, zeroOutput: bool)

  /** A hook that may replace or forgive (None) a resolution error, or panic. */
  type FailHook = (Resolver, Error) -> Outcome

  datatype Handler = Handler(
    callback: Option<Callback>,   // None for a nil callback
    state: Validation,
    values: seq<Resolver>,
    valueFail: Option<FailHook>)

  /** The parameter types the resolvers call for, in order. */
  function InTypes(values: seq<Resolver>): (ins: seq<TypeTag>)
    ensures |ins| == |values|
    ensures forall i :: 0 <= i < |values| ==> ins[i] == values[i].rType
  {
    seq(|values|, i requires 0 <= i < |values| => values[i].rType)
  }

  /** func(ins...) (JSON, error). */
  function Structured(values: seq<Resolver>): TypeTag {
    TFunc(InTypes(values), [JSONType, ErrorType], false)
  }

  /** func(ins...). */
  function Bare(values: seq<Resolver>): TypeTag {
    TFunc(InTypes(values), [], false)
  }

  function NotAFunc(tp: TypeTag): Error {
    Response(Server(NewError("invalid handler type; expected func got [ " + TypeString(tp) + " ]")))
  }

  function WrongSignature(values: seq<Resolver>, tp: TypeTag): Error {
    Response(Server(NewError("invalid handler function; expected [ " + TypeString(Structured(values))
                             + " ] got [ " + TypeString(tp) + " ]")))
  }

  /** Invalidate: checks the callback once and remembers a failure. The
      callback must take the resolvers' types and return (JSON, error) or
      nothing; the latter marks the handler as having no output. */
  function Invalidate(h: Handler): (res: Ret<Validation>)
    ensures h.state.err.Some? ==> res == Ret(h.state, h.state.err)
    ensures h.state.err.None? && h.callback.None? ==> res.Panicked?
    ensures res.Ret? ==> res.err == res.value.err
    ensures res.Succeeded() <==>
              h.state.err.None? && h.callback.Some?
              && (h.callback.value.ctype == Structured(h.values) || h.callback.value.ctype == Bare(h.values))
    ensures res.Succeeded() ==>
              res.value.zeroOutput == (h.state.zeroOutput || h.callback.value.ctype == Bare(h.values))
    ensures h.state.err.None? && h.callback.Some? && !h.callback.value.ctype.TFunc? ==>
              res == Ret(Validation(Some(NotAFunc(h.callback.value.ctype)), h.state.zeroOutput),
                         Some(NotAFunc(h.callback.value.ctype)))
    ensures h.state.err.None? && res.Failed() ==> res.value.err.value.Response? && res.value.err.value.re.serverError
  {
    if h.state.err.Some? then Ret(h.state, h.state.err)
    else match h.callback
      case None => Panicked("runtime error: invalid memory address or nil pointer dereference")
      case Some(cb) =>
        var tp := cb.ctype;
        if !tp.TFunc? then
          var e := NotAFunc(tp);
          Ret(h.state.(err := Some(e)), Some(e))
        else if tp == Structured(h.values) then Ok(h.state)
        else if tp == Bare(h.values) then Ok(h.state.(zeroOutput := true))
        else
          var e := WrongSignature(h.values, tp);
          Ret(h.state.(err := Some(e)), Some(e))
  }

  /** Checking twice is checking once: the second call sees the first's record. */
  lemma InvalidateIdempotent(h: Handler)
    requires Invalidate(h).Ret?
    ensures Invalidate(h.(state := Invalidate(h).value)) == Invalidate(h)
  {
  }

  /** What the fail hook makes of a resolution error. */
  function Forgive(hook: Option<FailHook>, v: Resolver, e: Error): Outcome {
    match hook
    case Some(cb) => cb(v, e)
    case None => Returns(Some(e))
  }

  /** Whether resolver v yields an argument: it resolves, or its error is forgiven. */
  predicate Yields(env: Env, st: Store, r: Request, v: Resolver, hook: Option<FailHook>) {
    var res := Resolve(env, st, r, v);
    res.Succeeded() || (res.Failed() && Forgive(hook, v, res.err.value) == Returns(None))
  }

  /** The argument v yields: its value, or its default when forgiven. */
  function Argument(env: Env, st: Store, r: Request, v: Resolver): Dyn {
    var res := Resolve(env, st, r, v);
    if res.Succeeded() then res.value else v.rDefault
  }

  /** The index of the first resolver that yields no argument, or |vs|
      when every one does. */
  function FirstRefused(env: Env, st: Store, r: Request, vs: seq<Resolver>, hook: Option<FailHook>): (i: nat)
    ensures i <= |vs|
    ensures forall j :: 0 <= j < i ==> Yields(env, st, r, vs[j], hook)
    ensures i < |vs| ==> !Yields(env, st, r, vs[i], hook)
  {
    if |vs| == 0 then 0
    else if Yields(env, st, r, vs[0], hook) then
      assert forall j :: 1 <= j < |vs| ==> vs[1..][j - 1] == vs[j];
      1 + FirstRefused(env, st, r, vs[1..], hook)
    else 0
  }

  /** Handler.Values: one argument per resolver, stopping at the first
      error the hook does not forgive, or at a panic of a resolver or of
      the hook. */
  function Arguments(env: Env, st: Store, r: Request, vs: seq<Resolver>, hook: Option<FailHook>): (res: Ret<seq<Dyn>>)
    ensures res.Succeeded() <==> forall i :: 0 <= i < |vs| ==> Yields(env, st, r, vs[i], hook)
    ensures res.Succeeded() ==> |res.value| == |vs|
    ensures res.Succeeded() ==> forall i :: 0 <= i < |vs| ==> res.value[i] == Argument(env, st, r, vs[i])
    ensures var i := FirstRefused(env, st, r, vs, hook);
      && (res.Succeeded() <==> i == |vs|)
      && (res.Failed() <==> i < |vs| && Resolve(env, st, r, vs[i]).Failed()
                            && Forgive(hook, vs[i], Resolve(env, st, r, vs[i]).err.value).Returns?)
      && (res.Failed() ==> res.err == Forgive(hook, vs[i], Resolve(env, st, r, vs[i]).err.value).err)
      && (res.Panicked? ==> i < |vs| && res == Panicked(if Resolve(env, st, r, vs[i]).Panicked?
                                                        then Resolve(env, st, r, vs[i]).why
                                                        else Forgive(hook, vs[i], Resolve(env, st, r, vs[i]).err.value).why))
  {
    if |vs| == 0 then Ok([])
    else
      var v := vs[0];
      assert forall i :: 1 <= i < |vs| ==> vs[1..][i - 1] == vs[i];
      var head := Resolve(env, st, r, v);
      if head.Panicked? then Panicked(head.why)
      else if head.Failed() && Forgive(hook, v, head.err.value).Panics? then
        Panicked(Forgive(hook, v, head.err.value).why)
      else if head.Failed() && Forgive(hook, v, head.err.value).err.Some? then
        Fail([], Forgive(hook, v, head.err.value).err.value)
      else
        match Arguments(env, st, r, vs[1..], hook)
        case Panicked(why) => Panicked(why)
        case Ret(rest, Some(e)) => Fail([], e)
        case Ret(rest, None) => Ok([Argument(env, st, r, v)] + rest)
  }

  /** A write whose error ServeHTTP discards. */
  function Discard(res: Ret<Writer>): (out: Ret<Writer>)
    ensures !out.Failed()
  {
    match res
    case Panicked(why) => Panicked(why)
    case Ret(w, _) => Ok(w)
  }

  /** Whether reflect's Call accepts the arguments for the parameter types. */
  predicate Callable(ins: seq<TypeTag>, args: seq<Dyn>) {
    |ins| == |args| && forall i :: 0 <= i < |args| ==> Asserts(args[i], ins[i])
  }

  /** The JSON value a callback's first result stands for: its map, or a
      nil JSON map, which the assertion to JSON accepts just the same. */
  function ResultJSON(data: Option<map<string, Dyn>>): (d: Dyn)
    ensures Asserts(d, JSONType)
    ensures data.Some? <==> d.DMap?
  {
    match data
    case Some(m) => JSONOf(m)
    case None => DNilOf(JSONType)
  }

  /** What the callback's results turn into: its panic goes on; nothing is
      added for a callback without results; otherwise its error, or else
      its JSON, is written, and a failed write is dropped. */
  function Deliver(env: Env, zeroOutput: bool, out: CallOut): (res: Ret<Writer>)
    ensures !res.Failed()
    ensures out.CallPanics? ==> res == Panicked(out.why)
    ensures out.CallOut? && zeroOutput ==> res == Ok(out.w)
    ensures out.CallOut? && !zeroOutput && out.err.None? ==> res.Succeeded()
    ensures out.CallOut? && !zeroOutput && out.err.None? && env.marshal(ResultJSON(out.data)).None? ==>
              && res.value.chunks == out.w.chunks + [ResultJSON(out.data)]
              && res.value.status == (if out.w.status.None? then Some(200) else out.w.status)
    ensures out.CallOut? && !zeroOutput && out.err.None? && env.marshal(ResultJSON(out.data)).Some? ==>
              res.value == out.w
    ensures out.CallOut? && !zeroOutput && out.err.Some? ==>
              (res.Panicked? <==> WriteError(env, out.w, out.err.value).Panicked?)
              && (res.Ret? ==> res.value == WriteError(env, out.w, out.err.value).value)
  {
    match out
    case CallPanics(why) => Panicked(why)
    case CallOut(w, data, err) =>
      if zeroOutput then Ok(w)
      else match err
        case Some(e) => Discard(WriteError(env, w, e))
        case None => Discard(WriteData(env, w, ResultJSON(data)))
  }

  /** ServeHTTP: a validation or resolution error is written as the response
      and the callback is not called; otherwise the callback runs with the
      resolved arguments and its result or error is written. No error is
      ever returned: only a panic stops it, whether of the check, a
      resolver, a validator, the fail hook or the callback. */
  function ServeHTTP(env: Env, h: Handler, st: Store, r: Request, w: Writer): (res: Ret<Writer>)
    ensures !res.Failed()
    ensures Invalidate(h).Panicked? ==> res.Panicked?
    ensures Invalidate(h).Succeeded() && Arguments(env, st, r, h.values, h.valueFail).Panicked? ==> res.Panicked?
    ensures Invalidate(h).Succeeded() && Arguments(env, st, r, h.values, h.valueFail).Succeeded() ==>
              var args := Arguments(env, st, r, h.values, h.valueFail).value;
              var out := h.callback.value.call(args, w);
              (res.Panicked? <==> !Callable(InTypes(h.values), args) || out.CallPanics?
                                  || (out.CallOut? && !Invalidate(h).value.zeroOutput && out.err.Some?
                                      && WriteError(env, out.w, out.err.value).Panicked?))
  {
    match Invalidate(h)
    case Panicked(why) => Panicked(why)
    case Ret(state, Some(e)) => Discard(WriteError(env, w, e))
    case Ret(state, None) =>
      match Arguments(env, st, r, h.values, h.valueFail)
      case Panicked(why) => Panicked(why)
      case Ret(_, Some(e)) => Discard(WriteError(env, w, e))
      case Ret(args, None) =>
        if !Callable(InTypes(h.values), args) then Panicked("reflect: Call with an argument of the wrong type")
        else Deliver(env, state.zeroOutput, h.callback.value.call(args, w))
  }

  /** A validation error, or else a resolution error, is what the response
      carries, and the callback is never consulted: any callback of the same
      type serves the same response. */
  lemma ServeErrorSkipsCallback(env: Env, h: Handler, cb: Callback, st: Store, r: Request, w: Writer)
    requires h.callback.Some? && cb.ctype == h.callback.value.ctype
    requires Invalidate(h).Failed()
             || (Invalidate(h).Succeeded() && Arguments(env, st, r, h.values, h.valueFail).Failed())
    ensures var e := if Invalidate(h).Failed() then Invalidate(h).err.value
                     else Arguments(env, st, r, h.values, h.valueFail).err.value;
      ServeHTTP(env, h, st, r, w) == Discard(WriteError(env, w, e))
    ensures ServeHTTP(env, h.(callback := Some(cb)), st, r, w) == ServeHTTP(env, h, st, r, w)
  {
    assert Invalidate(h.(callback := Some(cb))) == Invalidate(h);
  }

  /** A callback without results leaves the response to itself: whatever
      it wrote is the response, and nothing is added after it; its panic
      goes on. */
  lemma ServeZeroOutput(env: Env, h: Handler, st: Store, r: Request, w: Writer, args: seq<Dyn>)
    requires Invalidate(h).Succeeded() && Invalidate(h).value.zeroOutput
    requires Arguments(env, st, r, h.values, h.valueFail) == Ok(args)
    requires Callable(InTypes(h.values), args)
    ensures ServeHTTP(env, h, st, r, w) == match h.callback.value.call(args, w)
              case CallPanics(why) => Panicked(why)
              case CallOut(w', _, _) => Ok(w')
  {
  }

  /** A structured callback's error is written as the response, or else its
      JSON (a nil map included) follows whatever the callback wrote, with
      status 200 if none was sent; a JSON value that does not marshal leaves
      the response as the callback left it. A panic of the callback goes on. */
  lemma ServeStructured(env: Env, h: Handler, st: Store, r: Request, w: Writer, args: seq<Dyn>)
    requires Invalidate(h).Succeeded() && !Invalidate(h).value.zeroOutput
    requires Arguments(env, st, r, h.values, h.valueFail) == Ok(args)
    requires Callable(InTypes(h.values), args)
    ensures var out := h.callback.value.call(args, w);
      var res := ServeHTTP(env, h, st, r, w);
      && (out.CallPanics? ==> res == Panicked(out.why))
      && (out.CallOut? && out.err.Some? ==> res == Discard(WriteError(env, out.w, out.err.value)))
      && (out.CallOut? && out.err.None? ==> res.Succeeded())
      && (out.CallOut? && out.err.None? && env.marshal(ResultJSON(out.data)).None? ==>
            && res.value.chunks == out.w.chunks + [ResultJSON(out.data)]
            && res.value.status == (if out.w.status.None? then Some(200) else out.w.status))
      && (out.CallOut? && out.err.None? && env.marshal(ResultJSON(out.data)).Some? ==> res.value == out.w)
  {
  }

  /** New(cb, values...): a checked handler, or a panic with the check's error. */
  function New(cb: Option<Callback>, values: seq<Resolver>): (res: Ret<Handler>)
    ensures !res.Failed()
    ensures res.Panicked? <==> !Invalidate(Handler(cb, Validation(None, false), values, None)).Succeeded()
    ensures res.Ret? ==> res.value.callback == cb && res.value.values == values
    ensures res.Ret? ==> res.value.state.err.None? && res.value.valueFail.None?
  {
    var h := Handler(cb, Validation(None, false), values, None);
    match Invalidate(h)
    case Panicked(why) => Panicked(why)
    case Ret(state, Some(e)) => Panicked(ErrorString(e))
    case Ret(state, None) => Ok(h.(state := state))
  }

  /** OnFail(cb): install the resolution-failure hook. */
  function OnFail(h: Handler, cb: FailHook): (h': Handler)
    ensures h'.valueFail == Some(cb) && h'.values == h.values && h'.callback == h.callback && h'.state == h.state
  {
    h.(valueFail := Some(cb))
  }

  /** A hook that forgives every resolution error. */
  function ForgiveAll(): FailHook {
    (v: Resolver, e: Error) => Returns(None)
  }

  /** With every error forgiven, Values never reports an error: a resolver
      that fails stands at its default, and only a panic stops it. */
  lemma {:induction false} ForgivenArgumentsNeverFail(env: Env, st: Store, r: Request, vs: seq<Resolver>)
    ensures !Arguments(env, st, r, vs, Some(ForgiveAll())).Failed()
    ensures Arguments(env, st, r, vs, Some(ForgiveAll())).Succeeded() <==>
              forall i :: 0 <= i < |vs| ==> !Resolve(env, st, r, vs[i]).Panicked?
    decreases |vs|
  {
    if |vs| > 0 {
      ForgivenArgumentsNeverFail(env, st, r, vs[1..]);
    }
  }

  /** A handler given OnFail(ForgiveAll()) never answers with a resolution
      error: once validated, it calls back or panics. */
  lemma OnFailForgives(env: Env, h: Handler, st: Store, r: Request)
    ensures var h' := OnFail(h, ForgiveAll());
      !Arguments(env, st, r, h'.values, h'.valueFail).Failed()
  {
    ForgivenArgumentsNeverFail(env, st, r, h.values);
  }

  /** New accepts exactly the two signatures, and records whether the
      callback returns nothing. */
  lemma NewAcceptsTwoSignatures(cb: Callback, values: seq<Resolver>)
    ensures New(Some(cb), values).Ret? <==> cb.ctype == Structured(values) || cb.ctype == Bare(values)
    ensures New(Some(cb), values).Ret? ==> New(Some(cb), values).value.state.zeroOutput == (cb.ctype == Bare(values))
  {
    assert Structured(values) != Bare(values);
  }

  /** A handler that New accepted validates again without change, so serving
      it does not re-decide its signature. */
  lemma NewIsValidated(cb: Callback, values: seq<Resolver>)
    requires New(Some(cb), values).Ret?
    ensures Invalidate(New(Some(cb), values).value) == Ok(New(Some(cb), values).value.state)
  {
  }

  /** The resolvers of the package's example handler. */
  function HelloValues(): seq<Resolver> {
    [Get("name", TString).value]
  }

  /** The example's callback: func(name string) (JSON, error) returning {"hello": name}. */
  function HelloCallback(): Callback {
    Callback(Structured(HelloValues()),
             (args: seq<Dyn>, w: Writer) => CallOut(w, Some(map["hello" := if |args| > 0 then args[0] else DNil]), None))
  }

  /** The example's callback has the structured signature New accepts. */
  lemma HelloIsValid()
    ensures New(Some(HelloCallback()), HelloValues()).Ret?
    ensures Invalidate(New(Some(HelloCallback()), HelloValues()).value) == Ok(Validation(None, false))
  {
    var h := Handler(Some(HelloCallback()), Validation(None, false), HelloValues(), None);
    assert Invalidate(h) == Ok(Validation(None, false));
  }

  /** The example's one argument is the query's first "name" value. */
  lemma HelloArguments(env: Env, st: Store, r: Request, n: string)
    requires "name" in r.query && |r.query["name"]| > 0 && r.query["name"][0] == n
    ensures Arguments(env, st, r, HelloValues(), None) == Ok([DStr(n)])
  {
    var v := Get("name", TString).value;
    assert ReadScalar(env, st, r, v, FromGet) == Ok(DStr(n));
    assert Resolve(env, st, r, v) == Ok(DStr(n));
    assert Argument(env, st, r, v) == DStr(n);
    assert HelloValues() == [v] && [v][1..] == [];
    assert Arguments(env, st, r, [], None) == Ok([]);
    var head := Resolve(env, st, r, v);
    assert !head.Panicked? && !head.Failed();
    assert Arguments(env, st, r, [v], None) == Ok([DStr(n)] + []);
    assert [DStr(n)] + [] == [DStr(n)];
  }

  /** The package's example handler answers a request carrying ?name=<n>
      with {"hello": n} and status 200. */
  lemma HelloExample(env: Env, st: Store, r: Request, n: string)
    requires "name" in r.query && |r.query["name"]| > 0 && r.query["name"][0] == n
    requires env.marshal(JSONOf(map["hello" := DStr(n)])).None?
    ensures New(Some(HelloCallback()), HelloValues()).Ret?
    ensures var res := ServeHTTP(env, New(Some(HelloCallback()), HelloValues()).value, st, r, Fresh(true));
      && res.Succeeded()
      && res.value.chunks == [JSONOf(map["hello" := DStr(n)])]
      && res.value.status == Some(200)
  {
    HelloIsValid();
    var h := New(Some(HelloCallback()), HelloValues()).value;
    HelloServes(env, h, st, r, n);
  }

  /** The example handler's service, for any handler record New builds from it. */
  lemma HelloServes(env: Env, h: Handler, st: Store, r: Request, n: string)
    requires h.callback == Some(HelloCallback()) && h.values == HelloValues() && h.valueFail.None?
    requires Invalidate(h) == Ok(Validation(None, false))
    requires "name" in r.query && |r.query["name"]| > 0 && r.query["name"][0] == n
    requires env.marshal(JSONOf(map["hello" := DStr(n)])).None?
    ensures var res := ServeHTTP(env, h, st, r, Fresh(true));
      && res.Succeeded()
      && res.value.chunks == [JSONOf(map["hello" := DStr(n)])]
      && res.value.status == Some(200)
  {
    var m := map["hello" := DStr(n)];
    HelloReady(env, h, st, r, n);
    ServeJSON(env, h, st, r, Fresh(true), [DStr(n)], Fresh(true), m);
    assert Fresh(true).chunks + [JSONOf(m)] == [JSONOf(m)];
  }

  /** What ServeJSON needs of the example handler: its argument resolves,
      has the declared type, and the callback answers {"hello": n}. */
  lemma HelloReady(env: Env, h: Handler, st: Store, r: Request, n: string)
    requires h.callback == Some(HelloCallback()) && h.values == HelloValues() && h.valueFail.None?
    requires "name" in r.query && |r.query["name"]| > 0 && r.query["name"][0] == n
    ensures Arguments(env, st, r, h.values, h.valueFail) == Ok([DStr(n)])
    ensures Callable(InTypes(h.values), [DStr(n)])
    ensures h.callback.value.call([DStr(n)], Fresh(true)) == CallOut(Fresh(true), Some(map["hello" := DStr(n)]), None)
  {
    HelloArguments(env, st, r, n);
    HelloCallable(n);
    HelloAnswers(n, Fresh(true));
  }

  /** The example's one parameter is a string. */
  lemma HelloCallable(n: string)
    ensures Callable(InTypes(HelloValues()), [DStr(n)])
  {
    assert InTypes(HelloValues())[0] == TString;
  }

  /** The example callback answers {"hello": n} to the argument n. */
  lemma HelloAnswers(n: string, w: Writer)
    ensures HelloCallback().call([DStr(n)], w) == CallOut(w, Some(map["hello" := DStr(n)]), None)
  {
  }

  /** A validated structured handler whose arguments resolve and whose
      callback answers with a JSON map and no error writes that map after
      what the callback wrote, with status 200 on a writer that has sent
      nothing. */
  lemma ServeJSON(env: Env, h: Handler, st: Store, r: Request, w: Writer, args: seq<Dyn>, w': Writer, m: map<string, Dyn>)
    requires Invalidate(h) == Ok(Validation(None, false))
    requires Arguments(env, st, r, h.values, h.valueFail) == Ok(args)
    requires Callable(InTypes(h.values), args)
    requires h.callback.value.call(args, w) == CallOut(w', Some(m), None)
    requires env.marshal(JSONOf(m)).None?
    ensures var res := ServeHTTP(env, h, st, r, w);
      && res.Succeeded()
      && res.value.chunks == w'.chunks + [JSONOf(m)]
      && res.value.status == (if w'.status.None? then Some(200) else w'.status)
  {
    ServeStructured(env, h, st, r, w, args);
  }
}

=== FILE: middleware.dfy ===
/** Middleware (middleware.go): functions from the next handler to a new
    handler, plain or error-returning, and their chaining. */
module Middleware {
  import opened Base
  import opened Text
  import opened Data
  import opened Errors
  import opened Collaborators
  import opened ContextStore
  import opened Resolution
  import opened Responses
  import opened Dispatch

  /** What a handler acts on besides the request: the context data store
      and the response writer. */
  datatype Exchange = Exchange(st: Store, w: Writer)

  /** An http.Handler: the exchange after serving the request, or a panic.
      Handlers report no error, so a successful outcome carries none. */
  type Serve = (Exchange, Request) -> Ret<Exchange>

  /** NextHandler: wraps the next handler into a new one. */
  type NextHandler = Serve -> Serve

  /** Middleware and MiddlewareWithError: act on the exchange, possibly
      calling next; the error is only meaningful for the latter. */
  type MiddlewareFn = (Exchange, Request, Serve) -> Ret<Exchange>

  /** An outcome with its error dropped, as a handler that returns nothing yields. */
  function Settle(res: Ret<Exchange>): (out: Ret<Exchange>)
    ensures !out.Failed()
    ensures res.Ret? ==> out == Ok(res.value)
  {
    match res
    case Panicked(why) => Panicked(why)
    case Ret(x, _) => Ok(x)
  }

  /** M(fn): a handler that hands the exchange and next to fn. */
  function M(fn: MiddlewareFn): NextHandler {
    (next: Serve) => (x: Exchange, r: Request) => Settle(fn(x, r, next))
  }

  /** M(fn) hands fn the same exchange, request and next handler, and
      serves what fn leaves, dropping any error it reports. */
  lemma MPassesThrough(fn: MiddlewareFn, next: Serve, x: Exchange, r: Request)
    ensures fn(x, r, next).Ret? ==> M(fn)(next)(x, r) == Ok(fn(x, r, next).value)
    ensures M(fn)(next)(x, r).Panicked? <==> fn(x, r, next).Panicked?
  {
  }

  /** What MM does with the outcome of its function: an error is written to
      the response, the write's own error dropped. */
  function Respond(env: Env, res: Ret<Exchange>): (out: Ret<Exchange>)
    ensures !out.Failed()
    ensures res.Succeeded() ==> out == res
    ensures res.Failed() ==>
              out == match WriteError(env, res.value.w, res.err.value)
                     case Panicked(why) => Panicked(why)
                     case Ret(w, _) => Ok(res.value.(w := w))
  {
    match res
    case Panicked(why) => Panicked(why)
    case Ret(x, None) => Ok(x)
    case Ret(x, Some(e)) =>
      match WriteError(env, x.w, e)
      case Panicked(why) => Panicked(why)
      case Ret(w, _) => Ok(x.(w := w))
  }

  /** MM(fn): like M, writing the error fn returns as the response. */
  function MM(env: Env, fn: MiddlewareFn): NextHandler {
    (next: Serve) => (x: Exchange, r: Request) => Respond(env, fn(x, r, next))
  }

  /** mds[0](mds[1](... mds[n-1](h))): the first middleware is outermost. */
  function Nest(mds: seq<NextHandler>, h: Serve): Serve
    decreases |mds|
  {
    if |mds| == 0 then h else mds[0](Nest(mds[1..], h))
  }

  /** Chain(mds...): serve through every middleware, then the handler. */
  function Chain(mds: seq<NextHandler>): NextHandler {
    (hnd: Serve) => (x: Exchange, r: Request) =>
      if |mds| == 0 then hnd(x, r) else Nest(mds, hnd)(x, r)
  }

  /** The chain's empty case agrees with the general one: a chain serves
      as its nested middlewares do. */
  lemma ChainIsNest(mds: seq<NextHandler>, hnd: Serve, x: Exchange, r: Request)
    ensures Chain(mds)(hnd)(x, r) == Nest(mds, hnd)(x, r)
    ensures |mds| == 0 ==> Chain(mds)(hnd)(x, r) == hnd(x, r)
  {
  }

  /** A chain of one middleware is that middleware around the handler. */
  lemma ChainOne(md: NextHandler, hnd: Serve, x: Exchange, r: Request)
    ensures Chain([md])(hnd)(x, r) == md(hnd)(x, r)
  {
    ChainIsNest([md], hnd, x, r);
    assert [md][1..] == [];
    assert Nest([md], hnd) == md(Nest([], hnd));
  }

  /** Chaining two lists is chaining the first around the second. */
  lemma {:induction false} NestAppend(a: seq<NextHandler>, b: seq<NextHandler>, h: Serve)
    ensures Nest(a + b, h) == Nest(a, Nest(b, h))
    decreases |a|
  {
    if |a| == 0 {
      assert a + b == b;
    } else {
      assert (a + b)[0] == a[0];
      assert (a + b)[1..] == a[1..] + b;
      NestAppend(a[1..], b, h);
    }
  }

  /** The wrapping loop of Chain, from the last middleware to the first. */
  method Wrap(mds: seq<NextHandler>, hnd: Serve) returns (next: Serve)
    ensures next == Nest(mds, hnd)
    ensures |mds| > 0 ==> next == mds[0](Nest(mds[1..], hnd))
  {
    next := hnd;
    var k := |mds|;
    while k > 0
      invariant 0 <= k <= |mds|
      invariant next == Nest(mds[k..], hnd)
    {
      k := k - 1;
      assert mds[k..][1..] == mds[k + 1..];
      next := mds[k](next);
    }
  }

  // ---------------------------------------------------------------- ordering

  /** A middleware that logs its name and passes the request on. */
  function Tag(name: string): NextHandler {
    M((x: Exchange, r: Request, next: Serve) => next(x.(w := x.w.(logged := x.w.logged + [name])), r))
  }

  /** One logging middleware per name, in the same order. */
  function Tags(names: seq<string>): (mds: seq<NextHandler>)
    ensures |mds| == |names|
  {
    if |names| == 0 then [] else [Tag(names[0])] + Tags(names[1..])
  }

  /** The i-th middleware of Tags logs the i-th name. */
  lemma {:induction false} TagsAt(names: seq<string>, i: int)
    requires 0 <= i < |names|
    ensures Tags(names)[i] == Tag(names[i])
    decreases |names|
  {
    if i > 0 {
      TagsAt(names[1..], i - 1);
      assert Tags(names)[i] == Tags(names[1..])[i - 1];
    }
  }

  /** The exchange with lines appended to the log. */
  function Logged(x: Exchange, lines: seq<string>): Exchange {
    x.(w := x.w.(logged := x.w.logged + lines))
  }

  /** One logging middleware: it logs its name and serves through inner. */
  lemma TagStep(name: string, inner: Serve, x: Exchange, r: Request)
    ensures Tag(name)(inner)(x, r) == Settle(inner(Logged(x, [name]), r))
  {
  }

  lemma NestTags(names: seq<string>, hnd: Serve)
    requires |names| > 0
    ensures Nest(Tags(names), hnd) == Tag(names[0])(Nest(Tags(names[1..]), hnd))
  {
    assert Tags(names)[1..] == Tags(names[1..]);
  }

  /** Nested logging middlewares run in the order given: the handler sees
      each name logged, first to last. */
  lemma {:induction false} NestRunsInOrder(names: seq<string>, hnd: Serve, x: Exchange, r: Request)
    requires forall y: Exchange, q: Request :: !hnd(y, q).Failed()
    ensures Nest(Tags(names), hnd)(x, r) == hnd(Logged(x, names), r)
    decreases |names|
  {
    if |names| == 0 {
      assert Logged(x, names) == x;
    } else {
      var x1 := Logged(x, [names[0]]);
      var inner := Nest(Tags(names[1..]), hnd);
      NestTags(names, hnd);
      TagStep(names[0], inner, x, r);
      NestRunsInOrder(names[1..], hnd, x1, r);
      assert x.w.logged + [names[0]] + names[1..] == x.w.logged + names;
      assert Logged(x1, names[1..]) == Logged(x, names);
    }
  }

  /** Chained middlewares run in the order given. */
  lemma ChainRunsInOrder(names: seq<string>, hnd: Serve, x: Exchange, r: Request)
    requires forall y: Exchange, q: Request :: !hnd(y, q).Failed()
    ensures Chain(Tags(names))(hnd)(x, r) == hnd(Logged(x, names), r)
  {
    ChainIsNest(Tags(names), hnd, x, r);
    NestRunsInOrder(names, hnd, x, r);
  }

  // ---------------------------------------------------------------- an example

  /** The test router's token check: a request without an x-api-token header is
      refused with 403; otherwise the token is stored in the context data
      as "authToken" for the next handler. */
  function Auth(x: Exchange, r: Request, next: Serve): Ret<Exchange> {
    var token := HeaderGet(r, "x-api-token");
    if |token| < 1 then Fail(x, Response(Status(NewError("auth token missing"), 403)))
    else
      var p := PatchValue(x.st, r, "authToken", DStr(token));
      Settle(next(Exchange(p.st, x.w), p.req))
  }

  /** A typed handler as an http.Handler. */
  function AsServe(env: Env, h: Handler): Serve {
    (x: Exchange, r: Request) =>
      match ServeHTTP(env, h, x.st, r, x.w)
      case Panicked(why) => Panicked(why)
      case Ret(w, _) => Ok(x.(w := w))
  }

  /** Without a token, MM(Auth) answers 403 with {"error": "auth token
      missing"} and never reaches the next handler. */
  lemma AuthRefuses(env: Env, next: Serve, st: Store, r: Request)
    requires HeaderGet(r, "x-api-token") == ""
    requires env.marshal(JSONOf(map["error" := DStr("auth token missing")])).None?
    ensures var res := MM(env, Auth)(next)(Exchange(st, Fresh(true)), r);
      && res.Succeeded()
      && res.value.w.status == Some(403)
      && res.value.w.chunks == [JSONOf(map["error" := DStr("auth token missing")])]
  {
    var e := Status(NewError("auth token missing"), 403);
    var x := Exchange(st, Fresh(true));
    assert Auth(x, r, next) == Fail(x, Response(e));
    MMStep(env, Auth, next, x, r);
    assert AsJSON(e) == map["error" := DStr("auth token missing")];
    assert ResponseJSON(e, env.statusText) == map["error" := DStr("auth token missing")];
    WriteErrorOnFreshWriter(env, e);
  }

  lemma MMStep(env: Env, fn: MiddlewareFn, next: Serve, x: Exchange, r: Request)
    ensures MM(env, fn)(next)(x, r) == Respond(env, fn(x, r, next))
  {
  }

  /** The resolvers and callback of the token-echoing handler:
      func(token string) (JSON, error) returning {"token": token}. */
  function MeValues(): seq<Resolver> {
    [Context("authToken", TString).value]
  }

  function MeCallback(): Callback {
    Callback(Structured(MeValues()),
             (args: seq<Dyn>, w: Writer) => CallOut(w, Some(map["token" := if |args| > 0 then args[0] else DNil]), None))
  }

  lemma MeIsValid()
    ensures New(Some(MeCallback()), MeValues()).Ret?
    ensures Invalidate(New(Some(MeCallback()), MeValues()).value) == Ok(Validation(None, false))
  {
    var h := Handler(Some(MeCallback()), Validation(None, false), MeValues(), None);
    assert Invalidate(h) == Ok(Validation(None, false));
  }

  /** The handler's one argument is the token the middleware stored. */
  lemma MeArguments(env: Env, st: Store, r: Request, token: string)
    ensures var p := PatchValue(st, r, "authToken", DStr(token));
      Arguments(env, p.st, p.req, MeValues(), None) == Ok([DStr(token)])
  {
    var p := PatchValue(st, r, "authToken", DStr(token));
    var v := Context("authToken", TString).value;
    ContextReadsPatch(env, st, r, "authToken", DStr(token), TString);
    assert Resolve(env, p.st, p.req, v) == Ok(DStr(token));
    assert Argument(env, p.st, p.req, v) == DStr(token);
    assert MeValues() == [v] && [v][1..] == [];
    assert Arguments(env, p.st, p.req, [], None) == Ok([]);
    assert Arguments(env, p.st, p.req, [v], None) == Ok([DStr(token)] + []);
    assert [DStr(token)] + [] == [DStr(token)];
  }

  /** Served the patched request, the token-echoing handler answers 200
      with {"token": <token>}. */
  lemma MeServesToken(env: Env, st: Store, r: Request, token: string)
    requires env.marshal(JSONOf(map["token" := DStr(token)])).None?
    ensures New(Some(MeCallback()), MeValues()).Ret?
    ensures var p := PatchValue(st, r, "authToken", DStr(token));
      var served := ServeHTTP(env, New(Some(MeCallback()), MeValues()).value, p.st, p.req, Fresh(true));
      && served.Succeeded()
      && served.value.status == Some(200)
      && served.value.chunks == [JSONOf(map["token" := DStr(token)])]
  {
    MeIsValid();
    var h := New(Some(MeCallback()), MeValues()).value;
    var p := PatchValue(st, r, "authToken", DStr(token));
    var m := map["token" := DStr(token)];
    MeReady(env, h, st, r, token);
    ServeJSON(env, h, p.st, p.req, Fresh(true), [DStr(token)], Fresh(true), m);
    assert Fresh(true).chunks + [JSONOf(m)] == [JSONOf(m)];
  }

  /** What ServeJSON needs of the token-echoing handler on the patched request. */
  lemma MeReady(env: Env, h: Handler, st: Store, r: Request, token: string)
    requires h.callback == Some(MeCallback()) && h.values == MeValues() && h.valueFail.None?
    ensures var p := PatchValue(st, r, "authToken", DStr(token));
      Arguments(env, p.st, p.req, h.values, h.valueFail) == Ok([DStr(token)])
    ensures Callable(InTypes(h.values), [DStr(token)])
    ensures h.callback.value.call([DStr(token)], Fresh(true)) == CallOut(Fresh(true), Some(map["token" := DStr(token)]), None)
  {
    MeArguments(env, st, r, token);
    assert InTypes(MeValues())[0] == TString;
    MeAnswers(token, Fresh(true));
  }

  lemma MeAnswers(token: string, w: Writer)
    ensures MeCallback().call([DStr(token)], w) == CallOut(w, Some(map["token" := DStr(token)]), None)
  {
  }

  /** Auth hands a request with a token on to next, patched with the token. */
  lemma AuthPasses(env: Env, next: Serve, st: Store, r: Request)
    requires |HeaderGet(r, "x-api-token")| > 0
    ensures var p := PatchValue(st, r, "authToken", DStr(HeaderGet(r, "x-api-token")));
      MM(env, Auth)(next)(Exchange(st, Fresh(true)), r) == Respond(env, Settle(next(Exchange(p.st, Fresh(true)), p.req)))
  {
    MMStep(env, Auth, next, Exchange(st, Fresh(true)), r);
  }

  /** With a token, the chain of MM(Auth) and the token-echoing handler
      answers 200 with {"token": <token>}. */
  lemma AuthPassesToken(env: Env, st: Store, r: Request, token: string)
    requires HeaderGet(r, "x-api-token") == token && |token| > 0
    requires env.marshal(JSONOf(map["token" := DStr(token)])).None?
    ensures New(Some(MeCallback()), MeValues()).Ret?
    ensures var res := Chain([MM(env, Auth)])(AsServe(env, New(Some(MeCallback()), MeValues()).value))(Exchange(st, Fresh(true)), r);
      && res.Succeeded()
      && res.value.w.status == Some(200)
      && res.value.w.chunks == [JSONOf(map["token" := DStr(token)])]
  {
    MeServesToken(env, st, r, token);
    var h := New(Some(MeCallback()), MeValues()).value;
    var p := PatchValue(st, r, "authToken", DStr(token));
    var served := ServeHTTP(env, h, p.st, p.req, Fresh(true));
    var hnd := AsServe(env, h);
    var x0 := Exchange(st, Fresh(true));
    var y := Exchange(p.st, served.value);
    assert hnd(Exchange(p.st, Fresh(true)), p.req) == Ok(y);
    AuthPasses(env, hnd, st, r);
    assert MM(env, Auth)(hnd)(x0, r) == Ok(y);
    ChainOne(MM(env, Auth), hnd, x0, r);
  }
}

=== FILE: reader.dfy ===
/** Scalar coercion and field listing (reader.go): ReadValue turns a raw
    value into the declared type, ReadFields lists a struct's keys. */
module Coerce {
  import opened Base
  import opened Text
  import opened Data
  import opened Errors
  import opened Collaborators

  /** fmt.Sprint of a raw value. */
  function Sprint(env: Env, v: Dyn): string {
    match v
    case DStr(s) => s
    case DInt(_, i) => FormatInt(i)
    case DBool(b) => FormatBool(b)
    case DNil => "<nil>"
    case _ => env.sprint(v)
  }

  /** `any(v).(T)` on a freshly parsed value: the value when its type is T,
      a panic otherwise. */
  function AssertAs(v: Dyn, tp: TypeTag): (res: Ret<Dyn>)
    ensures res.Succeeded() <==> Asserts(v, tp)
    ensures res.Succeeded() ==> res.value == v
    ensures !res.Succeeded() ==> res.Panicked?
  {
    if Asserts(v, tp) then Ok(v) else Panicked("interface conversion: interface {} is not " + TypeString(tp))
  }

  /** The integer branch: the text parsed as a base-10 int64, asserted to T. */
  function ReadInt(str: string, tp: TypeTag, fb: Dyn): Ret<Dyn> {
    match ParseInt(str)
    case ParseFailed(k) => Fail(fb, NumError("ParseInt", str, k))
    case Parsed(n) => AssertAs(DInt(Int64, n), tp)
  }

  /** The float branch: the text parsed as a float64, asserted to T. */
  function ReadFloat(env: Env, str: string, tp: TypeTag, fb: Dyn): Ret<Dyn> {
    match env.parseFloat(str)
    case ParseFailed(k) => Fail(fb, NumError("ParseFloat", str, k))
    case Parsed(f) => AssertAs(DFloat(Float64, f), tp)
  }

  /** The bool branch: the text parsed by ParseBool, asserted to T. */
  function ReadBool(str: string, tp: TypeTag, fb: Dyn): Ret<Dyn> {
    match ParseBool(str)
    case ParseFailed(k) => Fail(fb, NumError("ParseBool", str, k))
    case Parsed(b) => AssertAs(DBool(b), tp)
  }

  /** ReadValue[T](tp, value, fb). */
  function ReadValue(env: Env, tp: TypeTag, value: Dyn, fb: Dyn): (res: Ret<Dyn>)
    ensures TypeOf(value) == Some(tp) ==> res == Ok(value)
    ensures res.Failed() ==> res.value == fb
  {
    if TypeOf(value) == Some(tp) then Ok(value)
    else
      var str := Sprint(env, value);
      match KindOf(tp)
      case KInt | KInt32 | KInt64 => ReadInt(str, tp, fb)
      case KFloat32 | KFloat64 => ReadFloat(env, str, tp, fb)
      case KBool => ReadBool(str, tp, fb)
      case KString => AssertAs(value, tp)
      case _ => Ok(fb)
  }

  predicate IsIntKind(k: Kind) { k == KInt || k == KInt32 || k == KInt64 }

  /** Integer targets read the value's text in base 10: a parse failure gives
      the fallback and a ParseInt error; a parsed number is an int64, so only
      an int64 target receives it and int or int32 targets panic. */
  lemma ReadValueInteger(env: Env, tp: TypeTag, value: Dyn, fb: Dyn)
    requires IsIntKind(KindOf(tp)) && TypeOf(value) != Some(tp)
    ensures var str := Sprint(env, value);
      && (ParseInt(str).ParseFailed? ==>
            ReadValue(env, tp, value, fb) == Fail(fb, NumError("ParseInt", str, ParseInt(str).kind)))
      && (ParseInt(str).Parsed? && tp == TInt(Int64) ==>
            ReadValue(env, tp, value, fb) == Ok(DInt(Int64, ParseInt(str).value)))
      && (ParseInt(str).Parsed? && tp != TInt(Int64) ==> ReadValue(env, tp, value, fb).Panicked?)
  {
    assert ReadValue(env, tp, value, fb) == ReadInt(Sprint(env, value), tp, fb);
  }

  /** A decimal string in the 64-bit range coerces to its value for an int64
      target; every other string is a ParseInt error. */
  lemma ReadValueDecimalString(env: Env, s: string, fb: Dyn)
    ensures IsDecimalLiteral(s) && MinInt64 <= LiteralValue(s) <= MaxInt64 ==>
              ReadValue(env, TInt(Int64), DStr(s), fb) == Ok(DInt(Int64, LiteralValue(s)))
    ensures !(IsDecimalLiteral(s) && MinInt64 <= LiteralValue(s) <= MaxInt64) ==>
              ReadValue(env, TInt(Int64), DStr(s), fb).Failed()
              && ReadValue(env, TInt(Int64), DStr(s), fb).err.value.NumError?
  {
    ParseIntMeaning(s);
  }

  /** Coercing the decimal rendering of an int64 gives the integer back. */
  lemma ReadValueIntRoundTrip(env: Env, n: int, fb: Dyn)
    requires MinInt64 <= n <= MaxInt64
    ensures ReadValue(env, TInt(Int64), DStr(FormatInt(n)), fb) == Ok(DInt(Int64, n))
  {
    FormatIntRoundTrip(n);
  }

  /** Bool targets succeed exactly on the strings ParseBool accepts. */
  lemma ReadValueBool(env: Env, value: Dyn, fb: Dyn)
    requires TypeOf(value) != Some(TBool)
    ensures var str := Sprint(env, value);
      && (ParseBool(str).Parsed? <==> ReadValue(env, TBool, value, fb).Succeeded())
      && (ParseBool(str).Parsed? ==> ReadValue(env, TBool, value, fb).value == DBool(ParseBool(str).value))
      && (ParseBool(str).ParseFailed? ==> ReadValue(env, TBool, value, fb) == Fail(fb, NumError("ParseBool", str, ErrSyntax)))
  {
  }

  /** The string branch is reached only when the value is not a string, so
      its assertion to string always panics. */
  lemma ReadValueStringPanics(env: Env, value: Dyn, fb: Dyn)
    requires TypeOf(value) != Some(TString)
    ensures ReadValue(env, TString, value, fb).Panicked?
  {
  }

  /** Targets of any other kind get the fallback and no error. */
  lemma ReadValueOtherKinds(env: Env, tp: TypeTag, value: Dyn, fb: Dyn)
    requires KindOf(tp) in {KStruct, KPtr, KMap, KSlice, KFunc, KInterface}
    requires TypeOf(value) != Some(tp)
    ensures ReadValue(env, tp, value, fb) == Ok(fb)
  {
  }

  // ---------------------------------------------------------------- fields

  /** The lower-cased names of the exported fields, in declaration order. */
  function ExportedNames(fields: seq<StructField>): (names: seq<string>)
    ensures |names| <= |fields|
  {
    if |fields| == 0 then []
    else (if IsExported(fields[0].name) then [ToLower(fields[0].name)] else []) + ExportedNames(fields[1..])
  }

  /** Every listed name is the lower-cased name of an exported field, and
      every exported field is listed. */
  lemma {:induction false} ExportedNamesMembers(fields: seq<StructField>)
    ensures var names := ExportedNames(fields);
      && (forall j :: 0 <= j < |names| ==>
            exists i :: 0 <= i < |fields| && IsExported(fields[i].name) && names[j] == ToLower(fields[i].name))
      && (forall i :: 0 <= i < |fields| && IsExported(fields[i].name) ==> ToLower(fields[i].name) in names)
    decreases |fields|
  {
    if |fields| > 0 {
      var head: seq<string> := if IsExported(fields[0].name) then [ToLower(fields[0].name)] else [];
      var tail := ExportedNames(fields[1..]);
      var names := ExportedNames(fields);
      assert names == head + tail;
      ExportedNamesMembers(fields[1..]);
      forall j | 0 <= j < |names|
        ensures exists i :: 0 <= i < |fields| && IsExported(fields[i].name) && names[j] == ToLower(fields[i].name)
      {
        if j < |head| {
          assert names[j] == ToLower(fields[0].name);
        } else {
          assert names[j] == tail[j - |head|];
          var i :| 0 <= i < |fields[1..]| && IsExported(fields[1..][i].name) && tail[j - |head|] == ToLower(fields[1..][i].name);
          assert fields[1..][i] == fields[i + 1];
        }
      }
      forall i | 0 <= i < |fields| && IsExported(fields[i].name)
        ensures ToLower(fields[i].name) in names
      {
        if i == 0 {
          assert names[0] == ToLower(fields[0].name);
        } else {
          assert fields[1..][i - 1] == fields[i];
          assert ToLower(fields[i].name) in tail;
        }
      }
    }
  }

  /** The element type ReadFields inspects: one pointer level unwrapped. */
  function FieldsOwner(t: TypeTag): TypeTag {
    if t.TPtr? then t.elem else t
  }

  /** ReadFields as a value: None where reflect's NumField panics because the
      unwrapped type is not a struct. */
  function FieldKeys(t: TypeTag): (keys: Option<seq<string>>)
    ensures keys.Some? <==> FieldsOwner(t).TStruct?
    ensures IsStructLike(t) ==> keys.Some?
  {
    var el := FieldsOwner(t);
    if el.TStruct? then Some(ExportedNames(el.fields)) else None
  }

  lemma {:induction false} ExportedNamesSnoc(fields: seq<StructField>, f: StructField)
    ensures ExportedNames(fields + [f]) ==
              ExportedNames(fields) + (if IsExported(f.name) then [ToLower(f.name)] else [])
    decreases |fields|
  {
    if |fields| == 0 {
      assert fields + [f] == [f];
      assert [f][1..] == [];
    } else {
      assert (fields + [f])[1..] == fields[1..] + [f];
      ExportedNamesSnoc(fields[1..], f);
    }
  }

  /** ReadFields(tp), as the loop over the struct's fields runs. */
  method ReadFields(t: TypeTag) returns (keys: Option<seq<string>>)
    ensures keys == FieldKeys(t)
  {
    var el := FieldsOwner(t);
    if !el.TStruct? {
      return None;
    }
    var names: seq<string> := [];
    var i := 0;
    while i < |el.fields|
      invariant 0 <= i <= |el.fields|
      invariant names == ExportedNames(el.fields[..i])
    {
      var f := el.fields[i];
      ExportedNamesSnoc(el.fields[..i], f);
      assert el.fields[..i + 1] == el.fields[..i] + [f];
      if IsExported(f.name) {
        names := names + [ToLower(f.name)];
      }
      i := i + 1;
    }
    assert el.fields[..i] == el.fields;
    return Some(names);
  }
}

=== FILE: text.dfy ===
/** Text and number helpers the engine borrows from Go's standard library:
    base-10 integer and boolean parsing (strconv), ASCII case folding and
    substring search (strings), header-key canonicalisation (net/textproto). */
module Text {

  /** Bounds strconv enforces for a 64-bit parse. */
  const MinInt64: int := -0x8000_0000_0000_0000
  const MaxInt64: int := 0x7fff_ffff_ffff_ffff
  const MaxUint64: int := 0xffff_ffff_ffff_ffff

  /** strconv.ParseUint stops with a range error once the accumulator reaches this. */
  const Cutoff: int := MaxUint64 / 10 + 1

  /** The two sentinel errors a strconv.NumError wraps. */
  datatype NumErrKind = ErrSyntax | ErrRange

  datatype Parsed<T> = Parsed(value: T) | ParseFailed(kind: NumErrKind)

  // ---------------------------------------------------------------- digits

  predicate IsDigit(c: char) { '0' <= c <= '9' }

  function DigitValue(c: char): nat
    requires IsDigit(c)
  {
    (c as int) - ('0' as int)
  }

  function DigitChar(d: nat): (c: char)
    requires d < 10
    ensures IsDigit(c) && DigitValue(c) == d
  {
    ('0' as int + d) as char
  }

  predicate AllDigits(s: string) {
    forall i :: 0 <= i < |s| ==> IsDigit(s[i])
  }

  function Pow10(n: nat): (p: nat)
    ensures p >= 1
  {
    if n == 0 then 1 else 10 * Pow10(n - 1)
  }

  /** Value of a digit string read most significant digit first. */
  function DecimalValue(s: string): nat
    requires AllDigits(s)
    decreases |s|
  {
    if |s| == 0 then 0 else DecimalValue(s[..|s| - 1]) * 10 + DigitValue(s[|s| - 1])
  }

  /** The shortest base-10 rendering of n (strconv.FormatUint(n, 10)). */
  function FormatNat(n: nat): (s: string)
    ensures |s| > 0 && AllDigits(s)
    ensures DecimalValue(s) == n
    ensures n >= 10 ==> s[0] != '0'
    decreases n
  {
    if n < 10 then [DigitChar(n)]
    else
      var s := FormatNat(n / 10) + [DigitChar(n % 10)];
      assert s[..|s| - 1] == FormatNat(n / 10);
      s
  }

  /** strconv.FormatInt(n, 10): a minus sign for negative numbers, then the digits. */
  function FormatInt(n: int): string {
    if n < 0 then "-" + FormatNat(-n) else FormatNat(n)
  }

  // ---------------------------------------------------------------- parsing

  /** The digit loop of strconv.ParseUint for base 10 and bit size 64: the
      first non-digit is a syntax error, the first overflow a range error,
      whichever comes first while scanning left to right. */
  function ScanUint(s: string, acc: nat): Parsed<nat>
    decreases |s|
  {
    if |s| == 0 then Parsed(acc)
    else if !IsDigit(s[0]) then ParseFailed(ErrSyntax)
    else if acc >= Cutoff then ParseFailed(ErrRange)
    else
      var n := acc * 10 + DigitValue(s[0]);
      if n > MaxUint64 then ParseFailed(ErrRange) else ScanUint(s[1..], n)
  }

  /** strconv.ParseUint(s, 10, 64). */
  function ParseUint(s: string): Parsed<nat> {
    if |s| == 0 then ParseFailed(ErrSyntax) else ScanUint(s, 0)
  }

  /** The digits of s after an optional leading sign. */
  function Unsigned(s: string): string {
    if |s| > 0 && (s[0] == '+' || s[0] == '-') then s[1..] else s
  }

  /** strconv.ParseInt(s, 10, 64). */
  function ParseInt(s: string): Parsed<int> {
    if |s| == 0 then ParseFailed(ErrSyntax)
    else
      var neg := s[0] == '-';
      match ParseUint(Unsigned(s))
      case ParseFailed(k) => ParseFailed(k)
      case Parsed(u) =>
        if !neg && u > MaxInt64 then ParseFailed(ErrRange)
        else if neg && u > -MinInt64 then ParseFailed(ErrRange)
        else
          var v: int := if neg then 0 - u else u;
          Parsed(v)
  }

  /** The reference reading of a base-10 literal: an optional sign followed
      by at least one digit. */
  predicate IsDecimalLiteral(s: string) {
    |Unsigned(s)| > 0 && AllDigits(Unsigned(s))
  }

  function LiteralValue(s: string): int
    requires IsDecimalLiteral(s)
  {
    var magnitude: int := DecimalValue(Unsigned(s));
    if s[0] == '-' then -magnitude else magnitude
  }

  lemma {:induction false} DecimalValueFront(s: string)
    requires |s| > 0 && AllDigits(s)
    ensures DecimalValue(s) == DigitValue(s[0]) * Pow10(|s| - 1) + DecimalValue(s[1..])
    decreases |s|
  {
    if |s| > 1 {
      var init := s[..|s| - 1];
      DecimalValueFront(init);
      assert init[1..] == s[1..][..|s[1..]| - 1];
      assert init[0] == s[0];
      var a, q := DigitValue(s[0]), Pow10(|s| - 2);
      var b, last := DecimalValue(init[1..]), DigitValue(s[|s| - 1]);
      assert DecimalValue(s) == (a * q + b) * 10 + last;
      assert DecimalValue(s[1..]) == b * 10 + last;
      assert Pow10(|s| - 1) == 10 * q;
      Shift(a, q, b, last);
    } else {
      assert s[1..] == [];
      assert s[..0] == [];
    }
  }

  lemma Shift(a: nat, q: nat, b: nat, last: nat)
    ensures (a * q + b) * 10 + last == a * (10 * q) + (b * 10 + last)
  {
  }

  lemma MulAtLeast(a: nat, p: nat)
    requires p >= 1
    ensures a * p >= a
  {
  }

  lemma Regroup(acc: nat, d: nat, p: nat, v: nat)
    ensures acc * (10 * p) + d * p + v == (acc * 10 + d) * p + v
  {
  }

  /** The value a digit scan started with accumulator acc should produce. */
  function ScanTotal(s: string, acc: nat): nat
    requires AllDigits(s)
  {
    acc * Pow10(|s|) + DecimalValue(s)
  }

  lemma {:induction false} ScanTotalStep(s: string, acc: nat)
    requires |s| > 0 && AllDigits(s)
    ensures ScanTotal(s, acc) == ScanTotal(s[1..], acc * 10 + DigitValue(s[0]))
    ensures ScanTotal(s, acc) >= acc * 10 + DigitValue(s[0])
  {
    var d := DigitValue(s[0]);
    var p := Pow10(|s| - 1);
    var v := DecimalValue(s[1..]);
    DecimalValueFront(s);
    assert Pow10(|s|) == 10 * p;
    Regroup(acc, d, p, v);
    MulAtLeast(acc * 10 + d, p);
  }

  /** On a digit string the scan yields acc * 10^|s| + value(s), or a range
      error exactly when that total exceeds the 64-bit unsigned maximum. */
  lemma {:induction false} ScanUintDigits(s: string, acc: nat)
    requires AllDigits(s) && acc <= MaxUint64
    ensures ScanTotal(s, acc) <= MaxUint64 ==> ScanUint(s, acc) == Parsed(ScanTotal(s, acc))
    ensures ScanTotal(s, acc) > MaxUint64 ==> ScanUint(s, acc) == ParseFailed(ErrRange)
    decreases |s|
  {
    if |s| == 0 {
      assert ScanTotal(s, acc) == acc;
    } else {
      var n := acc * 10 + DigitValue(s[0]);
      ScanTotalStep(s, acc);
      if acc < Cutoff && n <= MaxUint64 {
        ScanUintDigits(s[1..], n);
      }
    }
  }

  /** A scan over a string holding a non-digit always fails. */
  lemma {:induction false} ScanUintNonDigit(s: string, acc: nat)
    requires !AllDigits(s)
    ensures ScanUint(s, acc).ParseFailed?
    decreases |s|
  {
    if IsDigit(s[0]) && acc < Cutoff && acc * 10 + DigitValue(s[0]) <= MaxUint64 {
      var i :| 0 <= i < |s| && !IsDigit(s[i]);
      assert !IsDigit(s[1..][i - 1]);
      ScanUintNonDigit(s[1..], acc * 10 + DigitValue(s[0]));
    }
  }

  /** ParseInt accepts exactly the in-range decimal literals and returns their value. */
  lemma ParseIntMeaning(s: string)
    ensures ParseInt(s).Parsed? <==>
              IsDecimalLiteral(s) && MinInt64 <= LiteralValue(s) <= MaxInt64
    ensures ParseInt(s).Parsed? ==> ParseInt(s).value == LiteralValue(s)
  {
    if |s| > 0 {
      var u := Unsigned(s);
      if |u| == 0 {
      } else if AllDigits(u) {
        ScanUintDigits(u, 0);
        assert ScanTotal(u, 0) == DecimalValue(u);
      } else {
        ScanUintNonDigit(u, 0);
      }
    }
  }

  /** Formatting an in-range integer and parsing it back gives the integer. */
  lemma FormatIntRoundTrip(n: int)
    requires MinInt64 <= n <= MaxInt64
    ensures ParseInt(FormatInt(n)) == Parsed(n)
  {
    var s := FormatInt(n);
    if n < 0 {
      assert Unsigned(s) == FormatNat(-n);
    } else {
      assert IsDigit(s[0]);
      assert Unsigned(s) == s;
    }
    ParseIntMeaning(s);
  }

  /** strconv.ParseBool. */
  function ParseBool(s: string): Parsed<bool> {
    if s in {"1", "t", "T", "TRUE", "true", "True"} then Parsed(true)
    else if s in {"0", "f", "F", "FALSE", "false", "False"} then Parsed(false)
    else ParseFailed(ErrSyntax)
  }

  /** strconv.FormatBool; ParseBool reads it back. */
  function FormatBool(b: bool): (s: string)
    ensures ParseBool(s) == Parsed(b)
  {
    if b then "true" else "false"
  }

  // ---------------------------------------------------------------- strings

  predicate IsUpperAscii(c: char) { 'A' <= c <= 'Z' }
  predicate IsLowerAscii(c: char) { 'a' <= c <= 'z' }

  function LowerChar(c: char): (r: char)
    ensures !IsUpperAscii(r)
    ensures !IsUpperAscii(c) ==> r == c
  {
    if IsUpperAscii(c) then (c as int + 32) as char else c
  }

  function UpperChar(c: char): (r: char)
    ensures !IsLowerAscii(r)
    ensures !IsLowerAscii(c) ==> r == c
  {
    if IsLowerAscii(c) then (c as int - 32) as char else c
  }

  /** strings.ToLower on ASCII letters. */
  function ToLower(s: string): (r: string)
    ensures |r| == |s|
    ensures forall i :: 0 <= i < |r| ==> !IsUpperAscii(r[i])
    ensures forall i :: 0 <= i < |s| && !IsUpperAscii(s[i]) ==> r[i] == s[i]
  {
    if |s| == 0 then "" else [LowerChar(s[0])] + ToLower(s[1..])
  }

  /** Whether a Go identifier is exported (its first letter is upper case). */
  predicate IsExported(name: string) {
    |name| > 0 && IsUpperAscii(name[0])
  }

  predicate HasPrefix(s: string, p: string) {
    |p| <= |s| && s[..|p|] == p
  }

  /** sub occurs in s starting at index i. */
  predicate OccursAt(s: string, sub: string, i: int) {
    0 <= i <= |s| - |sub| && s[i..i + |sub|] == sub
  }

  /** strings.Contains. */
  function Contains(s: string, sub: string): (r: bool)
    ensures r <==> exists i :: OccursAt(s, sub, i)
    decreases |s|
  {
    if HasPrefix(s, sub) then
      assert OccursAt(s, sub, 0);
      true
    else if |s| == 0 then false
    else
      var r := Contains(s[1..], sub);
      assert r ==> exists i :: OccursAt(s, sub, i) by {
        if r {
          var j :| OccursAt(s[1..], sub, j);
          assert s[j + 1..j + 1 + |sub|] == s[1..][j..j + |sub|];
          assert OccursAt(s, sub, j + 1);
        }
      }
      assert (exists i :: OccursAt(s, sub, i)) ==> r by {
        if exists i :: OccursAt(s, sub, i) {
          var i :| OccursAt(s, sub, i);
          assert i != 0;
          assert s[1..][i - 1..i - 1 + |sub|] == s[i..i + |sub|];
          assert OccursAt(s[1..], sub, i - 1);
        }
      }
      r
  }

  /** sub cannot occur in s when no position that could start it holds
      sub's first character. */
  lemma AbsentFirstChar(s: string, sub: string)
    requires |sub| > 0
    requires forall i :: 0 <= i <= |s| - |sub| ==> s[i] != sub[0]
    ensures !Contains(s, sub)
  {
  }

  /** strings.Join. */
  function Join(parts: seq<string>, sep: string): string
    decreases |parts|
  {
    if |parts| == 0 then ""
    else if |parts| == 1 then parts[0]
    else parts[0] + sep + Join(parts[1..], sep)
  }

  /** strconv.Quote for text without control characters: the text between
      double quotes, with quote and backslash escaped. */
  function Quote(s: string): string {
    "\"" + Escape(s) + "\""
  }

  function Escape(s: string): string {
    if |s| == 0 then ""
    else if s[0] == '"' || s[0] == '\\' then ['\\', s[0]] + Escape(s[1..])
    else [s[0]] + Escape(s[1..])
  }

  // ---------------------------------------------------------------- header keys

  /** Bytes allowed in an HTTP header field name (RFC 7230 token characters). */
  predicate IsTokenChar(c: char) {
    IsUpperAscii(c) || IsLowerAscii(c) || IsDigit(c) || c in "!#$%&'*+-.^_`|~"
  }

  predicate IsTokenString(s: string) {
    forall i :: 0 <= i < |s| ==> IsTokenChar(s[i])
  }

  /** The rewriting loop of textproto: a letter at the start or after a
      hyphen is upper-cased, every other letter lower-cased. */
  function CanonicalFrom(s: string, upper: bool): (r: string)
    ensures |r| == |s|
  {
    if |s| == 0 then ""
    else
      var c := if upper then UpperChar(s[0]) else LowerChar(s[0]);
      [c] + CanonicalFrom(s[1..], c == '-')
  }

  /** textproto.CanonicalMIMEHeaderKey, used by http.Header.Get: a key with
      any byte outside the token set is returned unchanged. */
  function CanonicalHeaderKey(s: string): string {
    if IsTokenString(s) then CanonicalFrom(s, true) else s
  }

  lemma {:induction false} CanonicalFromIdempotent(s: string, upper: bool)
    ensures CanonicalFrom(CanonicalFrom(s, upper), upper) == CanonicalFrom(s, upper)
    ensures IsTokenString(s) ==> IsTokenString(CanonicalFrom(s, upper))
    decreases |s|
  {
    if |s| > 0 {
      var c := if upper then UpperChar(s[0]) else LowerChar(s[0]);
      var t := CanonicalFrom(s, upper);
      CanonicalFromIdempotent(s[1..], c == '-');
      assert t[0] == c && t[1..] == CanonicalFrom(s[1..], c == '-');
      if IsTokenString(s) {
        assert IsTokenChar(s[0]);
        assert forall i :: 0 <= i < |s[1..]| ==> IsTokenChar(s[1..][i]) by {
          forall i | 0 <= i < |s[1..]| ensures IsTokenChar(s[1..][i]) {
            assert s[1..][i] == s[i + 1];
          }
        }
        assert forall i :: 1 <= i < |t| ==> IsTokenChar(t[i]) by {
          forall i | 1 <= i < |t| ensures IsTokenChar(t[i]) {
            assert t[i] == t[1..][i - 1];
          }
        }
      }
    }
  }

  /** Canonicalising a key twice changes nothing more. */
  lemma CanonicalHeaderKeyIdempotent(s: string)
    ensures CanonicalHeaderKey(CanonicalHeaderKey(s)) == CanonicalHeaderKey(s)
  {
    CanonicalFromIdempotent(s, true);
  }

  lemma {:induction false} CanonicalFromIgnoresCase(s: string, upper: bool)
    ensures CanonicalFrom(ToLower(s), upper) == CanonicalFrom(s, upper)
    decreases |s|
  {
    if |s| > 0 {
      var c := if upper then UpperChar(s[0]) else LowerChar(s[0]);
      var l := ToLower(s);
      assert l[0] == LowerChar(s[0]) && l[1..] == ToLower(s[1..]);
      CanonicalFromIgnoresCase(s[1..], c == '-');
    }
  }

  lemma {:induction false} ToLowerKeepsTokens(s: string)
    requires IsTokenString(s)
    ensures IsTokenString(ToLower(s))
    decreases |s|
  {
    if |s| > 0 {
      var l := ToLower(s);
      assert IsTokenChar(s[0]);
      assert IsTokenString(s[1..]) by {
        forall i | 0 <= i < |s[1..]| ensures IsTokenChar(s[1..][i]) {
          assert s[1..][i] == s[i + 1];
        }
      }
      ToLowerKeepsTokens(s[1..]);
      assert l[1..] == ToLower(s[1..]);
      forall i | 0 <= i < |l| ensures IsTokenChar(l[i]) {
        if i > 0 {
          assert l[i] == l[1..][i - 1];
        }
      }
    }
  }

  /** Header lookups ignore letter case: a lower-cased token key canonicalises
      to the same key as the original. */
  lemma CanonicalHeaderKeyIgnoresCase(s: string)
    requires IsTokenString(s)
    ensures CanonicalHeaderKey(ToLower(s)) == CanonicalHeaderKey(s)
  {
    ToLowerKeepsTokens(s);
    CanonicalFromIgnoresCase(s, true);
  }
}

=== FILE: value.dfy ===
/** Value resolvers (value.go): a resolver names a field, a source and a
    target type, and turns a request into a value of that type or an error. */
module Resolution {
  import opened Base
  import opened Text
  import opened Data
  import opened Errors
  import opened Collaborators
  import opened ContextStore
  import opened Coerce
  import opened BodyRules

  /** Where a resolver reads from; FromDefault picks by request method. */
  datatype ValueSource = FromPath | FromGet | FromBody | FromHeader | FromContext | FromDefault

  /** A custom reader replaces the whole resolution. */
  type ReaderFn = (Store, Request) -> Ret<Dyn>
  /** A validator sees the resolved value and may reject it, or panic. */
  type ValidateFn = (Store, Request, Dyn) -> Outcome

  /** Value[T]: rType is T and rDefault its zero value. */
  datatype Resolver = Resolver(
    field: string,
    alias: string,
    required: bool,
    source: ValueSource,
    reader: Option<ReaderFn>,
    validate: Option<ValidateFn>,
    rType: TypeTag,
    rDefault: Dyn)
  {
    /** The key the value is published under: the alias when set, else the field. */
    function Alias(): (a: string)
      ensures |alias| > 0 ==> a == alias
      ensures |alias| == 0 ==> a == field
      ensures |a| == 0 <==> |alias| == 0 && |field| == 0
    {
      if |alias| > 0 then alias else field
    }
  }

  // ---------------------------------------------------------------- construction

  /** The resolver NewValue[T](field, src) builds: required, no alias,
      reader or validator, and the zero value of T as default. */
  function Declared(field: string, src: ValueSource, t: TypeTag): Resolver {
    Resolver(field, "", true, src, None, None, t, Zero(t))
  }

  /** NewValue[T](field, src): the zero value is asserted back to T, and that
      assertion panics for an interface T, whose zero value is the nil
      interface. */
  function NewValue(field: string, src: ValueSource, t: TypeTag): (res: Ret<Resolver>)
    ensures res.Panicked? <==> t.TIface?
    ensures res.Ret? ==> res.err.None? && res.value.field == field && res.value.source == src && res.value.rType == t
    ensures res.Ret? ==> res.value.required && res.value.alias == "" && res.value.reader.None? && res.value.validate.None?
    ensures res.Ret? ==> TypeOf(res.value.rDefault) == Some(t) && res.value.rDefault == Zero(t)
    ensures res.Ret? ==> res.value.Alias() == field
  {
    if Asserts(Zero(t), t) then Ok(Declared(field, src, t))
    else Panicked("interface conversion: interface is nil, not " + TypeString(t))
  }

  function StructFrom(src: ValueSource, t: TypeTag): Ret<Resolver> { NewValue("", src, t) }
  function Struct(t: TypeTag): Ret<Resolver> { StructFrom(FromDefault, t) }
  function Get(field: string, t: TypeTag): Ret<Resolver> { NewValue(field, FromGet, t) }
  function Body(field: string, t: TypeTag): Ret<Resolver> { NewValue(field, FromBody, t) }
  function Path(field: string, t: TypeTag): Ret<Resolver> { NewValue(field, FromPath, t) }
  function Header(field: string, t: TypeTag): Ret<Resolver> { NewValue(field, FromHeader, t) }
  function Context(key: string, t: TypeTag): Ret<Resolver> { NewValue(key, FromContext, t) }

  /** Reader[T](cb): NewValue[T] with the reader set, panicking as NewValue does. */
  function Reader(cb: ReaderFn, t: TypeTag): (res: Ret<Resolver>)
    ensures res.Panicked? <==> t.TIface?
    ensures res.Ret? ==> res.err.None? && res.value.reader == Some(cb) && res.value.rType == t && res.value.Alias() == ""
  {
    match NewValue("", FromDefault, t)
    case Panicked(why) => Panicked(why)
    case Ret(v, _) => Ok(WithReader(v, cb))
  }

  function As(v: Resolver, n: string): Resolver { v.(alias := n) }
  function Optional(v: Resolver): Resolver { v.(required := false) }
  function Validate(v: Resolver, cb: ValidateFn): Resolver { v.(validate := Some(cb)) }
  function WithReader(v: Resolver, cb: ReaderFn): Resolver { v.(reader := Some(cb)) }

  /** For any type other than an interface the constructor helpers build a
      resolver and only differ in field and source; an empty field leaves
      only an alias to publish the value under. */
  lemma ConstructorsDiffer(field: string, t: TypeTag, n: string)
    requires !t.TIface?
    ensures Struct(t).Ret? && Get(field, t).Ret? && Body(field, t).Ret?
    ensures Path(field, t).Ret? && Header(field, t).Ret? && Context(field, t).Ret?
    ensures Struct(t).value.Alias() == "" && As(Struct(t).value, n).Alias() == n
    ensures Get(field, t).value.source == FromGet && Body(field, t).value.source == FromBody
    ensures Path(field, t).value.source == FromPath && Header(field, t).value.source == FromHeader
    ensures Context(field, t).value.source == FromContext && Struct(t).value.source == FromDefault
    ensures Optional(Get(field, t).value).Alias() == field && !Optional(Get(field, t).value).required
  {
  }

  /** For an interface type every constructor helper panics. */
  lemma InterfaceConstructorsPanic(field: string, t: TypeTag, cb: ReaderFn)
    requires t.TIface?
    ensures Struct(t).Panicked? && Get(field, t).Panicked? && Body(field, t).Panicked?
    ensures Path(field, t).Panicked? && Header(field, t).Panicked? && Context(field, t).Panicked?
    ensures Reader(cb, t).Panicked?
  {
  }

  // ---------------------------------------------------------------- readValue

  /** The error readValue reports when its source holds nothing usable. */
  function ValueFailed(field: string): Error {
    Response(Reason(NewError("resolve value failed [" + field + "]"), "value_failed"))
  }

  /** For a struct from the query: every query key with its first value. */
  function QueryFields(r: Request): (values: map<string, Dyn>)
    ensures values.Keys == r.query.Keys
    ensures forall k :: k in values ==> values[k] == DStr(Lookup(r.query, k))
  {
    map k | k in r.query :: DStr(First(r.query[k]))
  }

  /** For a struct from path wildcards: the listed keys with a non-empty value. */
  function PathFields(r: Request, keys: seq<string>): (values: map<string, Dyn>)
    ensures forall k :: k in values <==> k in keys && |PathValue(r, k)| > 0
    ensures forall k :: k in values ==> values[k] == DStr(PathValue(r, k))
  {
    if |keys| == 0 then map[]
    else
      var rest := PathFields(r, keys[1..]);
      if |PathValue(r, keys[0])| > 0 then rest[keys[0] := DStr(PathValue(r, keys[0]))] else rest
  }

  /** For a struct from headers: the listed keys whose canonical header has
      a non-empty first value. */
  function HeaderFields(r: Request, keys: seq<string>): (values: map<string, Dyn>)
    ensures forall k :: k in values <==> k in keys && |HeaderGet(r, k)| > 0
    ensures forall k :: k in values ==> values[k] == DStr(HeaderGet(r, k))
  {
    if |keys| == 0 then map[]
    else
      var rest := HeaderFields(r, keys[1..]);
      if |HeaderGet(r, keys[0])| > 0 then rest[keys[0] := DStr(HeaderGet(r, keys[0]))] else rest
  }

  /** The index of the first key that is missing from data or holds nil
      there, or |keys| when there is none. */
  function FirstUnreadable(data: map<string, Dyn>, keys: seq<string>): (i: nat)
    ensures i <= |keys|
    ensures forall j :: 0 <= j < i ==> keys[j] in data && data[keys[j]] != DNil
    ensures i < |keys| ==> keys[i] !in data || data[keys[i]] == DNil
  {
    if |keys| == 0 then 0
    else if keys[0] in data && data[keys[0]] != DNil then
      assert forall j :: 1 <= j < |keys| ==> keys[1..][j - 1] == keys[j];
      1 + FirstUnreadable(data, keys[1..])
    else 0
  }

  /** For a struct from context data: every listed key read as `any`, the
      first missing key aborting with GetData's error and a stored nil
      panicking in the assertion to `any`. */
  function ContextFields(st: Store, r: Request, keys: seq<string>): (res: Ret<map<string, Dyn>>)
    ensures res.Succeeded() ==> res.value.Keys == (set k | k in keys)
    ensures res.Succeeded() ==> forall k :: k in res.value ==> k in GetAllData(st, r) && res.value[k] == GetAllData(st, r)[k]
    ensures res.Succeeded() <==> forall k :: k in keys ==> k in GetAllData(st, r) && GetAllData(st, r)[k] != DNil
    ensures var i := FirstUnreadable(GetAllData(st, r), keys);
      && (res.Succeeded() <==> i == |keys|)
      && (res.Failed() <==> i < |keys| && keys[i] !in GetAllData(st, r))
      && (res.Failed() ==> res.value == map[] && res.err == Some(MissingData(r, keys[i])))
  {
    if |keys| == 0 then Ok(map[])
    else
      match GetData(st, r, keys[0], AnyType, DNil)
      case Panicked(why) => Panicked(why)
      case Ret(kv, Some(e)) => Fail(map[], e)
      case Ret(kv, None) =>
        var rest := ContextFields(st, r, keys[1..]);
        if rest.Panicked? then rest
        else if rest.Failed() then rest
        else Ok(rest.value[keys[0] := kv])
  }

  /** The collected field map bound into a fresh value, or the read failure. */
  function BindFields(env: Env, v: Resolver, values: map<string, Dyn>): (res: Ret<Dyn>)
    ensures res.Ret?
    ensures |values| == 0 ==> res == Fail(v.rDefault, ValueFailed(v.field))
    ensures res.Failed() ==> res.value == v.rDefault
  {
    if |values| > 0 then
      match env.structToStruct(DMap(false, values), Zero(v.rType))
      case Success(d) => Ok(d)
      case Failure(e) => Fail(v.rDefault, e)
    else Fail(v.rDefault, ValueFailed(v.field))
  }

  /** readValue for a struct or pointer-to-struct type. */
  function ReadStruct(env: Env, st: Store, r: Request, v: Resolver, src: ValueSource): (res: Ret<Dyn>)
    requires IsStructLike(v.rType)
    ensures res.Failed() ==> res.value == v.rDefault
  {
    if src == FromBody then
      match BodyReadStruct(env, r, v.rType)
      case Panicked(why) => Panicked(why)
      case Ret(data, Some(e)) => Fail(v.rDefault, e)
      case Ret(data, None) => Ok(data)
    else
      var keys := FieldKeys(v.rType).value;
      match src
      case FromGet => BindFields(env, v, QueryFields(r))
      case FromPath => BindFields(env, v, PathFields(r, keys))
      case FromHeader => BindFields(env, v, HeaderFields(r, keys))
      case FromContext =>
        (match ContextFields(st, r, keys)
         case Panicked(why) => Panicked(why)
         case Ret(values, Some(e)) => Fail(v.rDefault, e)
         case Ret(values, None) => BindFields(env, v, values))
      case _ => BindFields(env, v, map[])
  }

  /** readValue for any other type: one raw value coerced by ReadValue. A
      missing query key, body field, path wildcard or header, and the
      default source itself, fail with the field's read error and the
      default; a present raw value is what ReadValue coerces. */
  function ReadScalar(env: Env, st: Store, r: Request, v: Resolver, src: ValueSource): (res: Ret<Dyn>)
    ensures res.Failed() ==> res.value == v.rDefault
    ensures src == FromDefault ==> res == Fail(v.rDefault, ValueFailed(v.field))
    ensures src == FromGet && v.field !in r.query ==> res == Fail(v.rDefault, ValueFailed(v.field))
    ensures src == FromGet && v.field in r.query ==>
              res == ReadValue(env, v.rType, DStr(Lookup(r.query, v.field)), v.rDefault)
    ensures src == FromBody && !BodyRead(r, v.field).1 ==> res == Fail(v.rDefault, ValueFailed(v.field))
    ensures src == FromBody && BodyRead(r, v.field).1 ==>
              res == ReadValue(env, v.rType, BodyRead(r, v.field).0, v.rDefault)
    ensures src == FromPath && |PathValue(r, v.field)| == 0 ==> res == Fail(v.rDefault, ValueFailed(v.field))
    ensures src == FromPath && |PathValue(r, v.field)| > 0 ==>
              res == ReadValue(env, v.rType, DStr(PathValue(r, v.field)), v.rDefault)
    ensures src == FromHeader && v.field !in r.header ==> res == Fail(v.rDefault, ValueFailed(v.field))
    ensures src == FromHeader && v.field in r.header && |r.header[v.field]| > 0 ==>
              res == ReadValue(env, v.rType, DStr(r.header[v.field][0]), v.rDefault)
    ensures src == FromContext ==> res == GetData(st, r, v.field, v.rType, v.rDefault)
    ensures src == FromHeader ==>
              (res.Panicked? <==> (v.field in r.header && |r.header[v.field]| == 0)
                                  || (v.field in r.header && |r.header[v.field]| > 0
                                      && ReadValue(env, v.rType, DStr(r.header[v.field][0]), v.rDefault).Panicked?))
  {
    var failed := Fail(v.rDefault, ValueFailed(v.field));
    match src
    case FromGet =>
      if v.field in r.query then ReadValue(env, v.rType, DStr(Lookup(r.query, v.field)), v.rDefault) else failed
    case FromBody =>
      var (bValue, ok) := BodyRead(r, v.field);
      if ok then ReadValue(env, v.rType, bValue, v.rDefault) else failed
    case FromPath =>
      var pVal := PathValue(r, v.field);
      if |pVal| > 0 then ReadValue(env, v.rType, DStr(pVal), v.rDefault) else failed
    case FromHeader =>
      if v.field in r.header then
        if |r.header[v.field]| == 0 then Panicked("index out of range [0] with length 0")
        else ReadValue(env, v.rType, DStr(r.header[v.field][0]), v.rDefault)
      else failed
    case FromContext => GetData(st, r, v.field, v.rType, v.rDefault)
    case FromDefault => failed
  }

  /** readValue(r, src). */
  function ReadSource(env: Env, st: Store, r: Request, v: Resolver, src: ValueSource): (res: Ret<Dyn>)
    ensures res.Failed() ==> res.value == v.rDefault
  {
    if IsStructLike(v.rType) then ReadStruct(env, st, r, v, src) else ReadScalar(env, st, r, v, src)
  }

  /** readDefaultValue: the body for a request with one, otherwise the query
      and then the path wildcards, keeping the last attempt's outcome. */
  function ReadDefault(env: Env, st: Store, r: Request, v: Resolver): (res: Ret<Dyn>)
    ensures HasBody(r) ==> res == ReadSource(env, st, r, v, FromBody)
    ensures !HasBody(r) && ReadSource(env, st, r, v, FromGet).Succeeded() ==> res == ReadSource(env, st, r, v, FromGet)
    ensures !HasBody(r) && ReadSource(env, st, r, v, FromGet).Failed() ==> res == ReadSource(env, st, r, v, FromPath)
    ensures !HasBody(r) && ReadSource(env, st, r, v, FromGet).Panicked? ==> res.Panicked?
  {
    if HasBody(r) then ReadSource(env, st, r, v, FromBody)
    else
      var fromGet := ReadSource(env, st, r, v, FromGet);
      if fromGet.Panicked? || fromGet.Succeeded() then fromGet else ReadSource(env, st, r, v, FromPath)
  }

  // ---------------------------------------------------------------- Resolve

  /** The outcome of reading before the validator runs. */
  function Read(env: Env, st: Store, r: Request, v: Resolver): Ret<Dyn> {
    if v.source == FromDefault then ReadDefault(env, st, r, v) else ReadSource(env, st, r, v, v.source)
  }

  /** Resolve(r): a custom reader decides alone; otherwise a read error is
      reported only for a required value, an optional one falling back to
      the default, and the validator may still reject what was read. */
  function Resolve(env: Env, st: Store, r: Request, v: Resolver): (res: Ret<Dyn>)
    ensures v.reader.Some? ==> res == v.reader.value(st, r)
    ensures v.reader.None? && res.Ret? ==> res.err.Some? || res.value == v.rDefault || Read(env, st, r, v).Succeeded()
    ensures v.reader.None? && res.Failed() ==> res.value == v.rDefault
    ensures v.reader.None? ==>
              (res.Panicked? <==> Read(env, st, r, v).Panicked?
                                  || (Read(env, st, r, v).Succeeded() && v.validate.Some?
                                      && v.validate.value(st, r, Read(env, st, r, v).value).Panics?))
    ensures v.reader.None? && Read(env, st, r, v).Failed() ==>
              res == (if v.required then Read(env, st, r, v) else Ok(v.rDefault))
    ensures v.reader.None? && Read(env, st, r, v).Succeeded() ==>
              match v.validate
              case None => res == Read(env, st, r, v)
              case Some(cb) =>
                res == (match cb(st, r, Read(env, st, r, v).value)
                        case Panics(why) => Panicked(why)
                        case Returns(Some(e)) => Fail(v.rDefault, e)
                        case Returns(None) => Read(env, st, r, v))
  {
    if v.reader.Some? then v.reader.value(st, r)
    else
      var read := Read(env, st, r, v);
      if read.Panicked? then read
      else if read.err.Some? then
        if v.required then Fail(v.rDefault, read.err.value) else Ok(v.rDefault)
      else match v.validate
        case None => Ok(read.value)
        case Some(cb) =>
          match cb(st, r, read.value)
          case Panics(why) => Panicked(why)
          case Returns(Some(e)) => Fail(v.rDefault, e)
          case Returns(None) => Ok(read.value)
  }

  // ---------------------------------------------------------------- properties

  /** An optional value without a validator never reports an error. */
  lemma OptionalNeverFails(env: Env, st: Store, r: Request, v: Resolver)
    requires v.reader.None? && v.validate.None? && !v.required
    ensures !Resolve(env, st, r, v).Failed()
  {
  }

  /** A query parameter holding the decimal rendering of an int64 resolves
      to that integer. */
  lemma GetIntRoundTrip(env: Env, st: Store, r: Request, field: string, n: int)
    requires MinInt64 <= n <= MaxInt64
    requires field in r.query && |r.query[field]| > 0 && r.query[field][0] == FormatInt(n)
    ensures Resolve(env, st, r, Get(field, TInt(Int64)).value) == Ok(DInt(Int64, n))
  {
    ReadValueIntRoundTrip(env, n, Zero(TInt(Int64)));
  }

  /** A query parameter that is not a decimal int64 makes a required int64
      value fail with the ParseInt error and the default. */
  lemma GetIntRejects(env: Env, st: Store, r: Request, field: string)
    requires field in r.query && |r.query[field]| > 0
    requires var s := r.query[field][0]; !(IsDecimalLiteral(s) && MinInt64 <= LiteralValue(s) <= MaxInt64)
    ensures var res := Resolve(env, st, r, Get(field, TInt(Int64)).value);
      res.Failed() && res.value == DInt(Int64, 0) && res.err.value.NumError?
  {
    ReadValueDecimalString(env, r.query[field][0], Zero(TInt(Int64)));
  }

  /** A string value from a non-empty path wildcard resolves to it unchanged. */
  lemma PathStringResolves(env: Env, st: Store, r: Request, field: string)
    requires |PathValue(r, field)| > 0
    ensures Resolve(env, st, r, Path(field, TString).value) == Ok(DStr(PathValue(r, field)))
  {
  }

  /** A scalar header value is looked up by the exact key, not the canonical
      one: a key present only in canonical form resolves to the read error. */
  lemma HeaderScalarExactKey(env: Env, st: Store, r: Request, field: string, t: TypeTag)
    requires !IsStructLike(t) && !t.TIface? && field !in r.header
    ensures Resolve(env, st, r, Header(field, t).value) == Fail(Zero(t), ValueFailed(field))
  {
  }

  /** A header listed with no values makes a scalar header value panic. */
  lemma HeaderScalarEmptyPanics(env: Env, st: Store, r: Request, field: string, t: TypeTag)
    requires !IsStructLike(t) && !t.TIface? && field in r.header && |r.header[field]| == 0
    ensures Resolve(env, st, r, Header(field, t).value).Panicked?
  {
  }

  /** A context value resolves to what PatchValue stored under its key. */
  lemma ContextReadsPatch(env: Env, st: Store, r: Request, key: string, value: Dyn, t: TypeTag)
    requires !IsStructLike(t) && !t.TIface? && Asserts(value, t)
    ensures var p := PatchValue(st, r, key, value);
      Resolve(env, p.st, p.req, Context(key, t).value) == Ok(value)
  {
    PatchValueReadBack(st, r, key, value, t, Zero(t));
  }

  /** Without a body, the default source falls back from the query to the
      path wildcards. */
  lemma DefaultFallsBackToPath(env: Env, st: Store, r: Request, field: string)
    requires !HasBody(r) && field !in r.query && |PathValue(r, field)| > 0
    ensures Resolve(env, st, r, NewValue(field, FromDefault, TString).value) == Ok(DStr(PathValue(r, field)))
  {
  }

  /** A struct read from the query with no query parameters fails, so
      without a body the default source tries the path wildcards next, and
      a failure there is reported as the required value's error. */
  lemma StructEmptyQuery(env: Env, st: Store, r: Request, t: TypeTag)
    requires IsStructLike(t) && |r.query| == 0
    ensures ReadSource(env, st, r, Struct(t).value, FromGet) == Fail(Zero(t), ValueFailed(""))
    ensures !HasBody(r) ==>
              ReadDefault(env, st, r, Struct(t).value) == ReadSource(env, st, r, Struct(t).value, FromPath)
    ensures !HasBody(r) && ReadSource(env, st, r, Struct(t).value, FromPath).Failed() ==>
              Resolve(env, st, r, Struct(t).value)
                == Fail(Zero(t), ReadSource(env, st, r, Struct(t).value, FromPath).err.value)
  {
  }
}

=== FILE: values.dfy ===
/** Collecting several resolved values into one JSON map (values.go). */
module Collect {
  import opened Base
  import opened Data
  import opened Errors
  import opened Collaborators
  import opened Resolution

  /** Whether a resolver takes part in Values: only one with a non-empty alias. */
  predicate Published(v: Resolver) {
    |v.Alias()| > 0
  }

  /** The aliases of the published resolvers. */
  function Aliases(rs: seq<Resolver>): set<string> {
    set i | 0 <= i < |rs| && Published(rs[i]) :: rs[i].Alias()
  }

  lemma AliasesCons(rs: seq<Resolver>)
    requires |rs| > 0
    ensures Aliases(rs) == (if Published(rs[0]) then {rs[0].Alias()} else {}) + Aliases(rs[1..])
  {
    var head: set<string> := if Published(rs[0]) then {rs[0].Alias()} else {};
    forall a | a in Aliases(rs)
      ensures a in head + Aliases(rs[1..])
    {
      var i :| 0 <= i < |rs| && Published(rs[i]) && rs[i].Alias() == a;
      if i > 0 {
        assert rs[1..][i - 1] == rs[i];
      }
    }
    forall a | a in Aliases(rs[1..])
      ensures a in Aliases(rs)
    {
      var i :| 0 <= i < |rs[1..]| && Published(rs[1..][i]) && rs[1..][i].Alias() == a;
      assert rs[1..][i] == rs[i + 1];
    }
  }

  /** The index of the first published resolver that does not resolve
      cleanly, or |rs| when there is none. */
  function FirstUnresolved(env: Env, st: Store, r: Request, rs: seq<Resolver>): (i: nat)
    ensures i <= |rs|
    ensures forall j :: 0 <= j < i && Published(rs[j]) ==> Resolve(env, st, r, rs[j]).Succeeded()
    ensures i < |rs| ==> Published(rs[i]) && !Resolve(env, st, r, rs[i]).Succeeded()
  {
    if |rs| == 0 then 0
    else if !Published(rs[0]) || Resolve(env, st, r, rs[0]).Succeeded() then
      assert forall j :: 1 <= j < |rs| ==> rs[1..][j - 1] == rs[j];
      1 + FirstUnresolved(env, st, r, rs[1..])
    else 0
  }

  /** The Values loop from resolver rs[0] on, with the map built so far:
      the first published resolver that fails or panics decides the outcome. */
  function CollectFrom(env: Env, st: Store, r: Request, rs: seq<Resolver>, acc: map<string, Dyn>): (res: Ret<map<string, Dyn>>)
    ensures res.Succeeded() <==>
              forall i :: 0 <= i < |rs| && Published(rs[i]) ==> Resolve(env, st, r, rs[i]).Succeeded()
    ensures var i := FirstUnresolved(env, st, r, rs);
      && (res.Succeeded() <==> i == |rs|)
      && (res.Failed() <==> i < |rs| && Resolve(env, st, r, rs[i]).Failed())
      && (res.Failed() ==> res.value == map[] && res.err == Resolve(env, st, r, rs[i]).err)
      && (res.Panicked? ==> i < |rs| && res == Panicked(Resolve(env, st, r, rs[i]).why))
    decreases |rs|
  {
    if |rs| == 0 then Ok(acc)
    else
      var v := rs[0];
      assert forall i :: 1 <= i < |rs| ==> rs[1..][i - 1] == rs[i];
      if !Published(v) then CollectFrom(env, st, r, rs[1..], acc)
      else
        match Resolve(env, st, r, v)
        case Panicked(why) => Panicked(why)
        case Ret(x, Some(e)) => Fail(map[], e)
        case Ret(x, None) => CollectFrom(env, st, r, rs[1..], acc[v.Alias() := x])
  }

  /** A clean collection holds the accumulated keys plus every published alias. */
  lemma {:induction false} CollectKeys(env: Env, st: Store, r: Request, rs: seq<Resolver>, acc: map<string, Dyn>)
    requires CollectFrom(env, st, r, rs, acc).Succeeded()
    ensures CollectFrom(env, st, r, rs, acc).value.Keys == acc.Keys + Aliases(rs)
    decreases |rs|
  {
    if |rs| > 0 {
      AliasesCons(rs);
      var v := rs[0];
      if Published(v) {
        CollectKeys(env, st, r, rs[1..], acc[v.Alias() := Resolve(env, st, r, v).value]);
      } else {
        CollectKeys(env, st, r, rs[1..], acc);
      }
    }
  }

  /** Values(r, rs...): each published value under its alias, or the first
      resolution error with a nil map. */
  function Values(env: Env, st: Store, r: Request, rs: seq<Resolver>): (res: Ret<map<string, Dyn>>)
    ensures res.Succeeded() <==>
              forall i :: 0 <= i < |rs| && Published(rs[i]) ==> Resolve(env, st, r, rs[i]).Succeeded()
    ensures res.Succeeded() ==> res.value.Keys == Aliases(rs)
    ensures var i := FirstUnresolved(env, st, r, rs);
      && (res.Failed() <==> i < |rs| && Resolve(env, st, r, rs[i]).Failed())
      && (res.Failed() ==> res.value == map[] && res.err == Resolve(env, st, r, rs[i]).err)
      && (res.Panicked? ==> i < |rs| && res == Panicked(Resolve(env, st, r, rs[i]).why))
  {
    var res := CollectFrom(env, st, r, rs, map[]);
    if res.Succeeded() then CollectKeys(env, st, r, rs, map[]); res else res
  }

  /** Appending one resolver to a list that collects cleanly: an unpublished
      one changes nothing, a published one adds its value under its alias,
      overwriting an earlier resolver with the same alias. */
  lemma {:induction false} CollectSnoc(env: Env, st: Store, r: Request, rs: seq<Resolver>, v: Resolver, acc: map<string, Dyn>)
    requires CollectFrom(env, st, r, rs, acc).Succeeded()
    ensures var before := CollectFrom(env, st, r, rs, acc).value;
      CollectFrom(env, st, r, rs + [v], acc) ==
        if !Published(v) then Ok(before)
        else match Resolve(env, st, r, v)
          case Panicked(why) => Panicked(why)
          case Ret(x, Some(e)) => Fail(map[], e)
          case Ret(x, None) => Ok(before[v.Alias() := x])
    decreases |rs|
  {
    if |rs| == 0 {
      assert rs + [v] == [v];
      assert [v][1..] == [];
    } else {
      assert (rs + [v])[0] == rs[0];
      assert (rs + [v])[1..] == rs[1..] + [v];
      if Published(rs[0]) {
        CollectSnoc(env, st, r, rs[1..], v, acc[rs[0].Alias() := Resolve(env, st, r, rs[0]).value]);
      } else {
        CollectSnoc(env, st, r, rs[1..], v, acc);
      }
    }
  }

  /** The last published resolver decides its alias's value. */
  lemma ValuesLastWins(env: Env, st: Store, r: Request, rs: seq<Resolver>, v: Resolver)
    requires Values(env, st, r, rs).Succeeded() && Published(v) && Resolve(env, st, r, v).Succeeded()
    ensures Values(env, st, r, rs + [v]).Succeeded()
    ensures v.Alias() in Values(env, st, r, rs + [v]).value
    ensures Values(env, st, r, rs + [v]).value[v.Alias()] == Resolve(env, st, r, v).value
  {
    CollectSnoc(env, st, r, rs, v, map[]);
  }

  /** ValuesAs(r, data, rs...): Values bound into data, the Values error
      returned before any binding. */
  function ValuesAs(env: Env, st: Store, r: Request, data: Dyn, rs: seq<Resolver>): (res: Ret<Dyn>)
    ensures Values(env, st, r, rs).Panicked? <==> res.Panicked?
    ensures Values(env, st, r, rs).Failed() ==> res == Fail(data, Values(env, st, r, rs).err.value)
    ensures Values(env, st, r, rs).Succeeded() ==>
              (res.Succeeded() <==> env.structToStruct(DMap(true, Values(env, st, r, rs).value), data).Success?)
  {
    match Values(env, st, r, rs)
    case Panicked(why) => Panicked(why)
    case Ret(vs, Some(e)) => Fail(data, e)
    case Ret(vs, None) =>
      match env.structToStruct(DMap(true, vs), data)
      case Success(d) => Ok(d)
      case Failure(e) => Fail(data, e)
  }

  /** ReadRequest(): a resolver handing over the request itself. */
  function ReadRequest(): (res: Ret<Resolver>)
    ensures res.Succeeded() && res.value.rType == RequestType && res.value.reader.Some? && !Published(res.value)
  {
    Reader((st: Store, r: Request) => Ok(DRequest(r)), RequestType)
  }

  /** The reader both context resolvers share: the request's context. */
  function ContextOf(st: Store, r: Request): Ret<Dyn> { Ok(DContext(r.ctx)) }

  /** ReadContext() as written: it goes through NewValue[context.Context],
      whose assertion of the nil zero value to the interface panics, so the
      resolver is never built. */
  function ReadContext(): (res: Ret<Resolver>)
    ensures res.Panicked?
  {
    Reader(ContextOf, ContextType)
  }

  /** ReadContext() building its resolver with the nil interface as default
      instead of asserting it to context.Context. */
  function ReadContextFixed(): (v: Resolver)
    ensures v.rType == ContextType && v.rDefault == DNil && v.reader == Some(ContextOf) && !Published(v)
  {
    WithReader(Declared("", FromDefault, ContextType), ContextOf)
  }

  /** Whatever the request, calling ReadContext panics while the corrected
      resolver hands over the request's context. */
  lemma ReadContextPanics(env: Env, st: Store, r: Request)
    ensures ReadContext().Panicked?
    ensures Resolve(env, st, r, ReadContextFixed()) == Ok(DContext(r.ctx))
  {
  }

  /** Both resolve to the request's own parts whatever the request, and are
      left out of Values unless given an alias. */
  lemma RequestAndContextReaders(env: Env, st: Store, r: Request, n: string)
    requires |n| > 0
    ensures Resolve(env, st, r, ReadRequest().value) == Ok(DRequest(r))
    ensures Resolve(env, st, r, ReadContextFixed()) == Ok(DContext(r.ctx))
    ensures Values(env, st, r, [ReadRequest().value, ReadContextFixed()]) == Ok(map[])
    ensures Values(env, st, r, [As(ReadRequest().value, n)]) == Ok(map[n := DRequest(r)])
  {
    var v := As(ReadRequest().value, n);
    assert Published(v) && Resolve(env, st, r, v) == Ok(DRequest(r));
    assert [v][1..] == [];
    assert CollectFrom(env, st, r, [v], map[]) == CollectFrom(env, st, r, [], map[n := DRequest(r)]);
  }
}

=== FILE: walk.dfy ===
/** Route statistics (walk.go): how one registered pattern is summarised
    and printed. Walking the multiplexer's internal tree is outside this
    model; it starts from the pattern the walk reaches. */
module RouteStats {
  import opened Text
  import opened WalkSettings

  /** A collected route. */
  datatype RouteStat = RouteStat(
    str: string,
    path: string,
    verb: string,     // Method
    host: string,
    loc: string,
    group: bool,
    prefix: string)

  /** The method shown: "MUX" for a group, "GET" when none is given. */
  function MethodLabel(s: RouteStat): (m: string)
    ensures s.group ==> m == "MUX"
    ensures !s.group && |s.verb| == 0 ==> m == "GET"
    ensures !s.group && |s.verb| > 0 ==> m == s.verb
  {
    var m := if |s.verb| < 1 then "GET" else s.verb;
    if s.group then "MUX" else m
  }

  /** The host shown: "(host) ", or nothing for no host. */
  function HostLabel(s: RouteStat): (h: string)
    ensures |s.host| == 0 <==> h == ""
    ensures |s.host| > 0 ==> h == "(" + s.host + ") "
  {
    if |s.host| > 0 then "(" + s.host + ") " else ""
  }

  /** RouteStat.String: "[m] " + host + prefix + path + " - " + loc. */
  function String(s: RouteStat): string {
    "[" + MethodLabel(s) + "] " + HostLabel(s) + s.prefix + s.path + " - " + s.loc
  }

  predicate HasSuffix(s: string, p: string) {
    |p| <= |s| && s[|s| - |p|..] == p
  }

  /** A printed line opens with the method label: "MUX" for a group
      whatever its method, "GET" for a route with none, else the method. */
  lemma StringLabels(s: RouteStat)
    ensures s.group ==> HasPrefix(String(s), "[MUX] ")
    ensures !s.group && s.verb == "" ==> HasPrefix(String(s), "[GET] ")
    ensures !s.group && s.verb != "" ==> HasPrefix(String(s), "[" + s.verb + "] ")
  {
    var head := "[" + MethodLabel(s) + "] ";
    assert String(s) == head + (HostLabel(s) + s.prefix + s.path + " - " + s.loc);
    Affixes(head, HostLabel(s) + s.prefix + s.path + " - " + s.loc);
  }

  /** After the label comes the host in parentheses when there is one, else
      directly the prefix; the line closes with the prefixed path and the
      location. */
  lemma StringHostAndPath(s: RouteStat)
    ensures |s.host| > 0 ==> HasPrefix(String(s), "[" + MethodLabel(s) + "] (" + s.host + ") ")
    ensures |s.host| == 0 ==> HasPrefix(String(s), "[" + MethodLabel(s) + "] " + s.prefix)
    ensures HasSuffix(String(s), s.prefix + s.path + " - " + s.loc)
  {
    var head := "[" + MethodLabel(s) + "] ";
    var tail := s.prefix + s.path + " - " + s.loc;
    assert String(s) == (head + HostLabel(s)) + tail;
    Affixes(head + HostLabel(s), tail);
    if |s.host| > 0 {
      assert head + HostLabel(s) == "[" + MethodLabel(s) + "] (" + s.host + ") " by {
        assert HostLabel(s) == "(" + s.host + ") ";
        SeqAssoc("[" + MethodLabel(s), "] ", "(" + s.host + ") ");
        SeqAssoc("[" + MethodLabel(s) + "] ", "(", s.host + ") ");
      }
    }
    if |s.host| == 0 {
      assert String(s) == (head + s.prefix) + (s.path + " - " + s.loc);
      Affixes(head + s.prefix, s.path + " - " + s.loc);
    }
  }

  lemma SeqAssoc(a: string, b: string, c: string)
    ensures a + b + c == a + (b + c)
  {
  }

  lemma Affixes(a: string, b: string)
    ensures HasPrefix(a + b, a) && HasSuffix(a + b, b)
  {
    assert (a + b)[..|a|] == a;
    assert (a + b)[|a + b| - |b|..] == b;
  }

  // ---------------------------------------------------------------- segments

  /** A pattern segment: its text or wildcard name, whether it is a
      wildcard, and whether that wildcard matches the rest of the path. */
  datatype Segment = Segment(s: string, wild: bool, multi: bool)

  /** How one segment is printed: {name}, {name...}, or the literal text; a
      segment with no text prints as nothing. */
  function Part(seg: Segment): (p: string)
    ensures |seg.s| == 0 ==> p == ""
    ensures |seg.s| > 0 && !seg.wild ==> p == seg.s
    ensures |seg.s| > 0 && seg.wild ==> p == "{" + seg.s + (if seg.multi then "...}" else "}")
  {
    if |seg.s| > 0 then
      if seg.wild then
        if seg.multi then "{" + seg.s + "...}" else "{" + seg.s + "}"
      else seg.s
    else ""
  }

  function Parts(segs: seq<Segment>): (parts: seq<string>)
    ensures |parts| == |segs|
    ensures forall i :: 0 <= i < |segs| ==> parts[i] == Part(segs[i])
  {
    seq(|segs|, i requires 0 <= i < |segs| => Part(segs[i]))
  }

  /** Whether some segment is a nameless wildcard, which marks a group. */
  predicate IsGroup(segs: seq<Segment>) {
    exists i :: 0 <= i < |segs| && segs[i].wild && |segs[i].s| == 0
  }

  /** The registered pattern the walk reaches. */
  datatype Pattern = Pattern(str: string, verb: string, host: string, loc: string, segments: seq<Segment>)

  /** The segment loop of buildRouteStat, segment by segment: the parts so
      far and whether a group marker was seen. */
  method RenderSegments(segs: seq<Segment>) returns (parts: seq<string>, grp: bool)
    ensures parts == Parts(segs)
    ensures grp <==> IsGroup(segs)
  {
    parts := [];
    grp := false;
    var i := 0;
    while i < |segs|
      invariant 0 <= i <= |segs|
      invariant parts == Parts(segs[..i])
      invariant grp <==> IsGroup(segs[..i])
    {
      var p := segs[i];
      if |p.s| == 0 && p.wild {
        grp := true;
      }
      assert segs[..i + 1][..i] == segs[..i];
      assert segs[..i + 1][i] == p;
      parts := parts + [Part(p)];
      i := i + 1;
    }
    assert segs[..i] == segs;
  }

  /** buildRouteStat from the pattern it inspects. */
  function BuildRouteStat(prefix: string, p: Pattern, wd: string, rel: (string, string) -> string): (s: RouteStat)
    ensures s.group <==> IsGroup(p.segments)
    ensures s.path == "/" + Join(Parts(p.segments), "/")
    ensures s.prefix == prefix && s.str == p.str && s.verb == p.verb && s.host == p.host
    ensures |wd| == 0 ==> s.loc == p.loc
  {
    RouteStat(p.str, "/" + Join(Parts(p.segments), "/"), p.verb, p.host,
              MakeRouteLoc(wd, p.loc, rel), IsGroup(p.segments), prefix)
  }

  // ---------------------------------------------------------------- reading a path back

  /** s cut at every occurrence of sep. */
  function Split(s: string, sep: char): (parts: seq<string>)
    ensures |parts| > 0
  {
    if |s| == 0 then [""]
    else
      var rest := Split(s[1..], sep);
      if s[0] == sep then [""] + rest else [[s[0]] + rest[0]] + rest[1..]
  }

  lemma {:induction false} SplitNoSep(a: string, sep: char, b: string)
    requires sep !in a
    ensures Split(a + b, sep) == [a + Split(b, sep)[0]] + Split(b, sep)[1..]
    decreases |a|
  {
    if |a| == 0 {
      assert a + b == b;
      var sb := Split(b, sep);
      assert a + sb[0] == sb[0];
      assert sb == [sb[0]] + sb[1..];
    } else {
      assert (a + b)[0] == a[0];
      assert (a + b)[1..] == a[1..] + b;
      SplitNoSep(a[1..], sep, b);
      assert [a[0]] + (a[1..] + Split(b, sep)[0]) == a + Split(b, sep)[0];
    }
  }

  /** Splitting a join gives the parts back when no part holds the separator. */
  lemma {:induction false} SplitJoin(parts: seq<string>, sep: char)
    requires |parts| > 0
    requires forall i :: 0 <= i < |parts| ==> sep !in parts[i]
    ensures Split(Join(parts, [sep]), sep) == parts
    decreases |parts|
  {
    if |parts| == 1 {
      SplitNoSep(parts[0], sep, "");
      assert parts[0] + "" == parts[0];
    } else {
      var tail := Join(parts[1..], [sep]);
      SplitJoin(parts[1..], sep);
      assert Split([sep] + tail, sep) == [""] + Split(tail, sep) by {
        assert ([sep] + tail)[1..] == tail;
      }
      SplitNoSep(parts[0], sep, [sep] + tail);
      assert parts[0] + [sep] + tail == parts[0] + ([sep] + tail);
      assert parts[0] + "" == parts[0];
    }
  }

  /** Route paths read back: cut after the leading "/", a stat's path gives
      one printed part per segment, as long as no segment text holds "/". */
  lemma PathListsSegments(prefix: string, p: Pattern, wd: string, rel: (string, string) -> string)
    requires |p.segments| > 0
    requires forall i :: 0 <= i < |p.segments| ==> '/' !in p.segments[i].s
    ensures var path := BuildRouteStat(prefix, p, wd, rel).path;
      |path| > 0 && path[0] == '/' && Split(path[1..], '/') == Parts(p.segments)
  {
    var parts := Parts(p.segments);
    forall i | 0 <= i < |parts|
      ensures '/' !in parts[i]
    {
      assert parts[i] == Part(p.segments[i]);
    }
    SplitJoin(parts, '/');
    var path := BuildRouteStat(prefix, p, wd, rel).path;
    assert path[1..] == Join(parts, "/");
  }
}

=== FILE: walk_config.dfy ===
/** The route-walk configuration (walk_config.go): a path prefix and a
    table from mount paths to nested multiplexers. The table is a Go map,
    shared by reference between a configuration and its clones, so the
    tables live in a MuxTables store and a configuration holds an index. */
module WalkSettings {
  import opened Base

  /** An *http.ServeMux, known only by identity. */
  type Mux = nat

  /** The mapping tables configurations refer to. */
  type MuxTables = seq<map<string, Mux>>

  /** A WalkConfig: its prefix and its mapping table, None for a nil map. */
  datatype WalkConfig = WalkConfig(prefix: string, mappings: Option<nat>)

  predicate ValidIn(tables: MuxTables, c: WalkConfig) {
    c.mappings.Some? ==> c.mappings.value < |tables|
  }

  /** The entries of a configuration's table; a nil map has none. */
  function Entries(tables: MuxTables, c: WalkConfig): (m: map<string, Mux>)
    requires ValidIn(tables, c)
    ensures c.mappings.None? ==> m == map[]
  {
    if c.mappings.Some? then tables[c.mappings.value] else map[]
  }

  /** NewWalkConfig: an empty prefix and a fresh, empty table. */
  function NewWalkConfig(tables: MuxTables): (res: (MuxTables, WalkConfig))
    ensures ValidIn(res.0, res.1) && res.1.prefix == "" && Entries(res.0, res.1) == map[]
    ensures |res.0| == |tables| + 1 && res.0[..|tables|] == tables
  {
    (tables + [map[]], WalkConfig("", Some(|tables|)))
  }

  /** Has(path): whether path is mapped. */
  function Has(tables: MuxTables, c: WalkConfig, path: string): (b: bool)
    requires ValidIn(tables, c)
    ensures b <==> path in Entries(tables, c)
  {
    c.mappings.Some? && path in tables[c.mappings.value]
  }

  /** Get(path): the mapped multiplexer, None (nil) when unmapped. */
  function Get(tables: MuxTables, c: WalkConfig, path: string): (m: Option<Mux>)
    requires ValidIn(tables, c)
    ensures m.Some? <==> Has(tables, c, path)
    ensures m.Some? ==> m.value == Entries(tables, c)[path]
  {
    if Has(tables, c, path) then Some(tables[c.mappings.value][path]) else None
  }

  /** Set(path, mux): writes into the shared table. Writing to a nil map
      panics, which is the None outcome. */
  function Set(tables: MuxTables, c: WalkConfig, path: string, mux: Mux): (res: Option<MuxTables>)
    requires ValidIn(tables, c)
    ensures res.None? <==> c.mappings.None?
    ensures res.Some? ==> |res.value| == |tables| && ValidIn(res.value, c)
    ensures res.Some? ==> Entries(res.value, c) == Entries(tables, c)[path := mux]
  {
    match c.mappings
    case None => None
    case Some(i) =>
      var updated: map<string, Mux> := tables[i][path := mux];
      Some(tables[i := updated])
  }

  /** Clone(prefix): a new prefix over the same table. */
  function Clone(c: WalkConfig, prefix: string): (d: WalkConfig)
    ensures d.prefix == prefix && d.mappings == c.mappings
  {
    WalkConfig(prefix, c.mappings)
  }

  /** After Set(p, m), p is mapped to m and every other path reads as before. */
  lemma SetThenGet(tables: MuxTables, c: WalkConfig, p: string, m: Mux, q: string)
    requires ValidIn(tables, c) && c.mappings.Some?
    ensures var t := Set(tables, c, p, m).value;
      && Has(t, c, p) && Get(t, c, p) == Some(m)
      && (q != p ==> Has(t, c, q) == Has(tables, c, q) && Get(t, c, q) == Get(tables, c, q))
  {
  }

  /** A fresh configuration maps nothing. */
  lemma FreshMapsNothing(tables: MuxTables, p: string)
    ensures var (t, c) := NewWalkConfig(tables); !Has(t, c, p) && Get(t, c, p) == None
  {
  }

  /** A clone and its original share one table: a Set through either is
      seen by both, while their prefixes stay their own. */
  lemma CloneSharesMappings(tables: MuxTables, c: WalkConfig, prefix: string, p: string, m: Mux)
    requires ValidIn(tables, c) && c.mappings.Some?
    ensures var d := Clone(c, prefix);
      && ValidIn(tables, d)
      && Get(Set(tables, d, p, m).value, c, p) == Some(m)
      && Entries(Set(tables, d, p, m).value, c) == Entries(Set(tables, d, p, m).value, d)
  {
  }

  /** makeRouteLoc: the path itself when no working directory is known,
      otherwise the path relative to it, as rel computes. */
  function MakeRouteLoc(wd: string, path: string, rel: (string, string) -> string): (loc: string)
    ensures |wd| == 0 ==> loc == path
  {
    if |wd| < 1 then path else rel(wd, path)
  }
}

=== FILE: writer.dfy ===
/** Writing JSON responses and errors (writer.go) to a response writer. */
module Responses {
  import opened Base
  import opened Data
  import opened Errors
  import opened Collaborators

  /** What a writer has received. isHTTP says whether it is an
      http.ResponseWriter, which also takes a status and headers; status is
      set by the first WriteHeader or the first write; chunks are the JSON
      values written, in order; logged is what went to the log writer. */
  datatype Writer = Writer(
    isHTTP: bool,
    status: Option<int>,
    headers: seq<(string, string)>,
    chunks: seq<Dyn>,
    logged: seq<string>)

  /** A writer that has received nothing. */
  function Fresh(isHTTP: bool): Writer {
    Writer(isHTTP, None, [], [], [])
  }

  /** WriteHeader: the first call sets the status, later ones are ignored,
      and a code outside 100..999 panics. */
  function WriteHeader(w: Writer, code: int): (res: Ret<Writer>)
    ensures w.status.Some? ==> res == Ok(w)
    ensures w.status.None? && !(100 <= code <= 999) ==> res.Panicked?
    ensures w.status.None? && 100 <= code <= 999 ==> res == Ok(w.(status := Some(code)))
  {
    if w.status.Some? then Ok(w)
    else if !(100 <= code <= 999) then Panicked("invalid WriteHeader code " + Text.FormatInt(code))
    else Ok(w.(status := Some(code)))
  }

  /** Header().Add: takes effect only while the header has not been sent. */
  function AddHeader(w: Writer, key: string, value: string): Writer {
    if w.status.None? then w.(headers := w.headers + [(key, value)]) else w
  }

  /** Write: sends status 200 first when no status was set. */
  function Write(w: Writer, data: Dyn): (res: Writer)
    ensures res.chunks == w.chunks + [data]
    ensures res.status == (if w.status.None? then Some(200) else w.status)
    ensures res.headers == w.headers && res.logged == w.logged && res.isHTTP == w.isHTTP
  {
    w.(status := if w.status.None? then Some(200) else w.status, chunks := w.chunks + [data])
  }

  /** The JSON value of a JSON map. */
  function JSONOf(m: map<string, Dyn>): Dyn {
    DMap(true, m)
  }

  /** WriteData: marshal, mark an HTTP writer as JSON, write. A marshal
      error leaves the writer untouched. */
  function WriteData(env: Env, w: Writer, data: Dyn): (res: Ret<Writer>)
    ensures res.Ret?
    ensures res.Failed() <==> env.marshal(data).Some?
    ensures res.Failed() ==> res.value == w
    ensures res.Succeeded() ==> res.value.chunks == w.chunks + [data] && res.value.logged == w.logged
    ensures res.Succeeded() && w.isHTTP && w.status.None? ==>
              res.value.headers == w.headers + [("Content-Type", "application/json")]
    ensures res.Succeeded() && !w.isHTTP ==> res.value.headers == w.headers
  {
    match env.marshal(data)
    case Some(e) => Fail(w, e)
    case None =>
      var marked := if w.isHTTP then AddHeader(w, "Content-Type", "application/json") else w;
      Ok(Write(marked, data))
  }

  /** LogError: a loggable error logs itself (only server errors print);
      any other error prints "[ERR] <message>". */
  function LogError(w: Writer, err: Error): (res: Writer)
    ensures res.chunks == w.chunks && res.status == w.status && res.headers == w.headers
    ensures |res.logged| == |w.logged| + 1 <==> !err.Response? || err.re.serverError
    ensures err.Response? && !err.re.serverError ==> res == w
    ensures !err.Response? ==> res.logged == w.logged + ["[ERR] " + ErrorString(err) + "\n"]
  {
    if Loggable(err) then
      match LogLine(err.re)
      case Some(line) => w.(logged := w.logged + [line])
      case None => w
    else w.(logged := w.logged + ["[ERR] " + ErrorString(err) + "\n"])
  }

  /** The JSON body and status WriteError uses for an error. */
  function ErrorBody(env: Env, err: Error): (data: map<string, Dyn>)
    ensures "error" in data
    ensures !Exportable(err) ==> data == map["error" := DStr(ErrorString(err))]
  {
    if Exportable(err) then ResponseJSON(err.re, env.statusText) else map["error" := DStr(ErrorString(err))]
  }

  function ErrorStatus(err: Error): int {
    if Exportable(err) then err.re.statusCode else 0
  }

  /** WriteError: the status (when positive, on an HTTP writer), the log
      line, then the error body as WriteData writes it. */
  function WriteError(env: Env, w: Writer, err: Error): (res: Ret<Writer>)
    ensures ErrorStatus(err) <= 0 || !w.isHTTP ==> res == WriteData(env, LogError(w, err), JSONOf(ErrorBody(env, err)))
    ensures res.Panicked? <==> ErrorStatus(err) > 0 && w.isHTTP && w.status.None? && !(100 <= ErrorStatus(err) <= 999)
  {
    var code := ErrorStatus(err);
    var headed := if code > 0 && w.isHTTP then WriteHeader(w, code) else Ok(w);
    match headed
    case Panicked(why) => Panicked(why)
    case Ret(w1, _) => WriteData(env, LogError(w1, err), JSONOf(ErrorBody(env, err)))
  }

  /** A one-entry JSON object {key: text} written as WriteData writes it:
      it fails exactly when that object does not marshal, and otherwise
      adds it as the next chunk. */
  function WriteSingle(env: Env, w: Writer, key: string, text: string): (res: Ret<Writer>)
    ensures res.Failed() <==> env.marshal(JSONOf(map[key := DStr(text)])).Some?
    ensures res.Failed() ==> res.value == w
    ensures res.Succeeded() ==> res.value.chunks == w.chunks + [JSONOf(map[key := DStr(text)])]
    ensures res.Succeeded() ==> res.value.status == (if w.status.None? then Some(200) else w.status)
  {
    WriteData(env, w, JSONOf(map[key := DStr(text)]))
  }

  /** WriteMessage: {"message": msg}. */
  function WriteMessage(env: Env, w: Writer, msg: string): Ret<Writer> {
    WriteSingle(env, w, "message", msg)
  }

  /** WriteErrorMessage: {"error": msg}. */
  function WriteErrorMessage(env: Env, w: Writer, msg: string): Ret<Writer> {
    WriteSingle(env, w, "error", msg)
  }

  /** On a fresh HTTP writer, a response error with a status in range sends
      that status, its exported JSON as the only chunk, and the JSON
      content type; a server error also logs one line. */
  lemma WriteErrorOnFreshWriter(env: Env, e: ResponseError)
    requires 100 <= e.statusCode <= 999
    requires env.marshal(JSONOf(ResponseJSON(e, env.statusText))).None?
    ensures var res := WriteError(env, Fresh(true), Response(e));
      && res.Succeeded()
      && res.value.status == Some(e.statusCode)
      && res.value.chunks == [JSONOf(ResponseJSON(e, env.statusText))]
      && res.value.headers == []
      && |res.value.logged| == (if e.serverError then 1 else 0)
  {
  }

  /** A plain error carries no status: a fresh HTTP writer answers 200 with
      {"error": message}, after logging it. */
  lemma WritePlainError(env: Env, msg: string)
    requires env.marshal(JSONOf(map["error" := DStr(msg)])).None?
    ensures var res := WriteError(env, Fresh(true), Plain(msg));
      && res.Succeeded()
      && res.value.status == Some(200)
      && res.value.chunks == [JSONOf(map["error" := DStr(msg)])]
      && res.value.headers == [("Content-Type", "application/json")]
      && res.value.logged == ["[ERR] " + msg + "\n"]
  {
  }

  /** A second write keeps the first status: an error written after data
      cannot change the status any more. */
  lemma StatusIsSetOnce(env: Env, w: Writer, err: Error)
    requires w.status.Some?
    ensures WriteError(env, w, err).Ret?
    ensures WriteError(env, w, err).value.status == w.status
  {
  }
}
